=== FILE: README.md ===
# mcgoweb in Dafny

A model of the core of mcgoweb, a small Go web framework. The model covers four parts:

- **Route templates and the method bitmask.** A template such as `/user/<userid:int>` is compiled into literal and typed-capture segments (`getPathPattern`, `newRoute`). Requests are matched against those segments (`matchesRequest`, `methodSupported`). The methods GET, POST, PUT and DELETE are single bits of a byte.
- **Handlers, blueprints and the application.** Handlers and blueprints collect middleware. The application registers handlers and blueprints as routes at `path.Join`-ed paths. Each route's middleware chain is assembled from three scopes, in this order: application, blueprint, handler. `dispatch` sends a request to the first matching route. If no route matches, the not-found handler or the standard 404 answers.
- **Sessions.** A session identifier is 16 bytes with a hyphenated hex form. The model covers:
  - the session record and its values;
  - the in-memory cache;
  - the session middleware, which attaches, expires or renews a session from the `SID` cookie.
- **The request context.** `StartSession` and `EndSession`.

The model has no regular-expression engine. `Matcher` gives the compiled segments a direct semantics:

- a literal matches itself;
- `int` matches `[\d]+`;
- `string` matches `[^/]+`;
- `path` matches `.+?`.

A backtracking matcher tries lengths in the engine's preference order: greedy kinds longest first, the lazy `path` shortest first. Its result is therefore the submatch the Go regex reports. `PathPatternOf` separately renders the exact expression text `getPathPattern` builds.

The following become parameters:

- the clock (`now`, in seconds; `time.Unix(0, 0)` is 0);
- the random draws (`draws`);
- the request: its method, its path, and its cookies;
- the cookie domain.

Middleware bodies are abstracted to an id and one choice: whether the middleware calls the handler it wraps. `Run` gives the trace of before- and after-work that running a composed handler produces.

Two parts of the code do not do what their own comments suggest, and the model follows the code:

- **A wrong method skips the route.** In `dispatch` (application.go:131-137), a matching route whose `methodSupported` test fails takes a branch commented `// Method not supported error` that `break`s out of the scan. But `matchesRequest` (route.go:79-81) already requires the method's bit. So every route that reaches the test passes it. The `break` is unreachable, and a route whose path matches under the wrong method is skipped while the scan goes on (`Application.BreakUnreachable`, `Application.WrongMethodSkipped`).
- **Sliding renewal.** The comment on `SessionUpdateWindow` (session.go:14-15) says the window decides when a session's expiration is updated. The test at session.go:174 renews only once `now` is past expiration plus the window. The enclosing branch has already ruled that out, so the expiration is never updated. See Findings.

## Model

| member | source | states |
|---|---|---|
| Methods.GetHTTPMethods | route.go:69-76 | each of `GET`, `POST`, `PUT`, `DELETE` maps to its own bit, and every other name, compared case-sensitively, maps to the zero error mask (each an iff) |
| Methods.MethodBitsDistinct | route.go:11-22 | two different recognised methods have disjoint masks, and each mask is a single non-zero bit |
| Strings.Split | route.go:36 | `strings.Split(s, "/")` gives at least one part, no part contains a slash, and joining the parts with `/` restores `s` |
| Strings.SplitCount | route.go:36 | a string with n slashes splits into n + 1 parts |
| Strings.SplitJoinSlash | route.go:36 | splitting the join of slash-free parts gives back exactly those parts |
| Strings.TrimLeftSlash | route.go:36 | the result is a suffix of the input, everything removed is slashes, and the result does not start with a slash |
| Strings.TrimLeftSlashIgnoresSlashes | route.go:36 | extra leading slashes do not change the trimmed text |
| Paths.JoinSegments | application.go:96 | the segments of `path.Join(elems)` are the segments of its elements in order: empty elements, doubled slashes and `.` contribute nothing |
| Paths.CleanSegments | application.go:96 | cleaning a path keeps its segments |
| Paths.JoinDropsTrailingSlash | application.go:96 | a joined path ends in a slash only if it is exactly `/` |
| Paths.JoinSplitsIntoSegments | application.go:96-97 | once the elements contribute a segment, the joined path with its leading slashes trimmed splits into exactly those segments |
| PathPattern.KindOfIff | route.go:33 | a word selects a kind iff it is that kind's keyword, and selects none iff it is not one of `int`, `path`, `string` |
| PathPattern.Compile | route.go:36-55 | one segment per part of the slash-trimmed, slash-split template, each being what that part parses to |
| PathPattern.PartPatterns | route.go:37-55 | the loop fills one pattern part per template part, in order, each the rendering of that part's segment |
| PathPattern.GetPathPattern | route.go:35-58 | the Go function returns exactly the pattern rendered from the compiled segments: `^/`, then the segment patterns joined by `/`, then `$` |
| PathPattern.ParseVariableExact | route.go:33-41 | a part parses as variable (name, kind) iff the name is `[a-zA-Z]\w+` and the part is exactly `<name:kind>` |
| PathPattern.CaptureIff | route.go:39-54 | a part compiles to a capture exactly when it has the variable form |
| PathPattern.LiteralPartKept | route.go:52-54 | a part without the variable form is kept verbatim as a literal |
| PathPattern.OneLetterNameIsLiteral | route.go:33 | a one-letter variable name falls below the `\w+` minimum, so the part stays literal |
| PathPattern.LeadingSlashesIgnored | route.go:36 | templates that differ only in leading slashes compile to the same segments and pattern |
| PathPattern.PatternShape | route.go:36-57 | a template yields one segment per slash of its trimmed text plus one, and a pattern anchored by `^/` and `$` |
| PathPattern.RootPattern | route_test.go:16 | `/` compiles to one empty literal, that is `^/$` |
| Matcher.MatchPath | route.go:82 | a match exists only for a path that is `/` followed by the matched texts joined by `/`, each text fitting its segment |
| Matcher.MatchComplete | route.go:82 | whenever the input splits into texts that fit the segments, the matcher finds a match |
| Matcher.MatchPathIff | route.go:82 | every path of the form `/` + fitting texts matches; together with `MatchPath` this is an iff |
| Matcher.PathCaptureIsShortest | route.go:47 | a leading `path` capture takes the shortest text with which the rest still matches (lazy `.+?`) |
| Matcher.GreedyCaptureIsLongest | route.go:45-49 | a leading `int` or `string` capture takes the longest text with which the rest still matches |
| Matcher.Captures | route.go:84-85 | there is one submatch per capture name |
| Handlers.NewHandler | handler.go:27-32 | the new handler has the given path and methods, no middleware and no request function |
| Handlers.AddMiddleware | handler.go:38-40 | the middleware is appended after the existing ones, and nothing else changes |
| Handlers.WithMiddlewareChain | handler.go:42-53 | wrapping from the last middleware inward builds the chain with the first middleware outermost |
| Handlers.ChainAppend | handler.go:48-53 | the chain of `a + b` around `h` is the chain of `a` around the chain of `b` around `h` |
| Handlers.RunPassThrough | handler.go:42-46 | with middleware that all call inward, running the chain does every before-part in list order, then the handler, then every after-part in reverse order |
| Handlers.RunShortCircuit | handler.go:42-46 | a middleware that does not call inward stops the chain: only it and the middleware before it run, and the handler never does |
| Routes.NewRoute | route.go:60-67 | the route keeps the template, handler and methods, and stores the pattern compiled from the template |
| Routes.BindVars | route.go:86-89 | the new request-variable map has exactly the capture names as keys |
| Routes.BindVarsLast | route.go:86-89 | a name maps to the text of its last capture |
| Routes.BindVarsDistinct | route.go:86-89 | with distinct names there is one entry per capture, holding that capture's text |
| Routes.MatchesRequestIff | route.go:78-94 | a route matches iff the method shares a bit with its mask and the path matches its pattern |
| Routes.MatchImpliesMethodSupported | route.go:96-103 | a route that matches also passes `methodSupported` |
| Routes.UnknownMethodNeverMatches | route.go:79-81 | a method outside the four never matches, and the variables stay unchanged |
| Routes.VarsUntouched | route.go:82-93 | without a match, or with a pattern that has no capture, the request variables are unchanged |
| Routes.VarsBound | route.go:82-91 | on a match with captures, the variables become the name-to-capture map, and each name whose capture is its last maps to that text |
| Blueprints.NewBlueprint | blueprint.go:15-17 | the blueprint has the given prefix, no handlers and no middleware |
| Blueprints.Register | blueprint.go:21-23 | the generated handler is appended, and the prefix and middleware stay |
| Blueprints.RegisterHandler | blueprint.go:26-28 | the handler is appended after the earlier ones, which stay in place along with the prefix and middleware |
| Blueprints.AddMiddleware | blueprint.go:33-35 | the middleware is appended after the earlier ones, which stay in place along with the prefix and handlers |
| Application.NewHTTPApplication | application.go:55-61 | the configuration holds the given name, root and bind location, with no routes, no middleware and no not-found handler |
| Application.AddRoute | application.go:71-73 | the old routes are a prefix of the new ones, and exactly one route is added, with the path, handler and methods as given and the path compiled into its pattern |
| Application.MiddlewareChain | application.go:84-93 | filling the slice scope by scope yields application, then blueprint, then handler middleware |
| Application.RegisterHandler | application.go:82-99 | one route is appended at `path.Join(root, handler path)`, with that path compiled into its pattern, running the handler inside the application chain around the handler chain, with the handler's methods; configuration, middleware and earlier routes stay |
| Application.Register | application.go:77-79 | the generated handler is registered as `RegisterHandler` would register it |
| Application.RegisterBlueprint | application.go:102-126 | one route per blueprint handler is appended, in blueprint order, at `path.Join(root, prefix, handler path)` compiled into its pattern, wrapped in application, then blueprint, then handler middleware |
| Application.DispatchLoop | application.go:128-145 | the Go loop computes the dispatch outcome, and any route it invokes matches the request |
| Application.ScanSpec | application.go:129-139 | the scan never stops at the `break`; if it finds a route, that is the first matching one, with its variables; if it runs out, no route matched and the variables stay unchanged |
| Application.BreakUnreachable | application.go:131-137 | the "method not supported" `break` is never taken |
| Application.DispatchFirstMatch | application.go:128-133 | route i is invoked iff it is the lowest-indexed matching route, and it receives the variables its match produced |
| Application.DispatchNotFound | application.go:140-144 | nothing is invoked iff no route matches; then the not-found handler answers if set, the standard 404 otherwise, with the variables unchanged |
| Application.WrongMethodSkipped | application.go:129-139 | a route whose mask excludes the method is never invoked, and the scan moves past it |
| Application.RegistrationOrderDecides | application.go:129-133 | of two routes that both match, the one registered first is invoked |
| Application.BlueprintMiddlewareOrder | application.go:102-126 | serving a request that reaches a blueprint route runs the before-parts in the order application, blueprint, handler, then the handler, then the after-parts in reverse |
| MatchShapes.LiteralsThenCaptureMatch | route.go:82 | the pattern `/l1/.../ln/<capture>` matches exactly the paths that start with `/l1/.../ln/` and continue with text the capture accepts; that text is the capture |
| MatchShapes.CaptureThenLiteralMatch | route.go:82 | the pattern `/<capture>/lit` matches exactly the paths `/x/lit` whose `x` the capture accepts; `x` is the capture |
| MatchShapes.RouteOfLiteralsThenCapture | route.go:78-94 | such a route, asked with an admitted method, binds only the capture's name, to that text |
| MatchShapes.RouteOfCaptureThenLiteral | route.go:78-94 | such a route, asked with an admitted method, binds only the capture's name, to `x` |
| PatternCases.RootedTemplateParts | route.go:36 | a template written as `/` and slash-free parts splits back into those parts |
| PatternCases.CompileRootedLiteralsThenVariable | route_test.go:17 | `/l1/.../<name:kind>`, with any number of literals, compiles to those literals followed by the capture |
| PatternCases.CompileVariableThenLiteral | route_test.go:20-21 | `/<name:kind>/lit` compiles to the capture followed by the literal; with `lit` empty, the trailing-slash template `/<name:kind>/` compiles to the capture followed by an empty literal |
| PatternCases.PatternOfLiterals | route_test.go:14-15 | a template of literal parts only, trailing slash included, renders as those parts verbatim between `^/` and `$` |
| PatternCases.PatternLiteralVariableLiteral | route_test.go:18-19 | `/a/<name:kind>/b` renders as `^/a/(?P<name>K)/b$`, with K the kind's expression; with `b` empty, `/a/<name:kind>/` renders as `^/a/(?P<name>K)/$` |
| RouteCases.RouteMatchLiteralsThenVariable | route_test.go:49-53 | a route `/l1/.../<name:kind>`, with any number of literals (none gives `/<name:kind>`), matches exactly the paths with that prefix (`/` alone when there are no literals) followed by text the kind accepts, and binds `name` to all of that text |
| RouteCases.RouteMatchVariableThenLiteral | route_test.go:55-59 | a route `/<name:kind>/lit` matches exactly the paths `/x/lit` whose `x` the kind accepts, and binds `name` to `x` |
| RouteCases.PathCaptureTakesAllButLastLiteral | route_test.go:58-65 | a lazy `path` capture still takes slash-containing text up to the final `/lit`, and, with `lit` empty, up to the trailing slash (lines 58-59 and 64-65) |
| RouteCases.PathCaptureTakesWholePath | route_test.go:61-62 | a route that is a single `path` variable binds everything after the leading slash, slashes included |
| RouteCases.StringCaptureRejectsSlash | route_test.go:78 | a `string` capture cannot match text that contains a slash |
| RouteCases.IntCaptureRejectsNonDigit | route_test.go:76 | an `int` capture cannot match text that contains a non-digit |
| RouteCases.IntCaptureBindsDigits | route_test.go:49-50 | the digits after the prefix are bound to the variable name |
| AppCases.RootedHandlerPattern | application.go:96-97 | under root `/r/`, the handler path `/u/<name:kind>` compiles to literals `r` and `u` followed by the capture |
| AppCases.OneRouteDispatch | application.go:128-145 | with a single route and no not-found handler, the route is invoked iff it matches, and the standard 404 answers otherwise |
| AppCases.HandlingCase | application_test.go:18-56 | an application rooted at `/r/` with a GET handler at `/u/<name:int>` invokes the handler iff the path is `/r/u/` followed by digits, binding `name` to those digits, and answers 404 otherwise |
| AppCases.BlueprintHandlerPattern | application.go:122-123 | under root `/` and prefix `/b`, the handler path `/f/<name:kind>` compiles to literals `b` and `f` followed by the capture |
| AppCases.BlueprintCase | blueprint_test.go:8-51 | a blueprint at `/b` with a GET handler at `/f/<name:path>` is invoked iff the path is `/b/f/` followed by non-empty text without a newline, binding `name` to all of it, slashes included, and answers 404 otherwise |
| Sessions.IdFormatSize | session.go:40 | the identifier layout carries 16 bytes in 36 characters |
| Sessions.IdStringLayout | session.go:39-41 | the string form of an identifier is 36 characters: dashes at positions 8, 13, 18 and 23, and a lower-case hex digit at every other position, as `%x-%x-%x-%x-%x` over bytes 0-3, 4-5, 6-7, 8-9 and 10-15 prints it |
| Sessions.IdFromString | session.go:45-60 | a successful parse consumed at least 36 characters |
| Sessions.ScanRender | session.go:40-52 | scanning what the format rendered gives back the bytes, whatever text follows |
| Sessions.RenderScan | session.go:40-52 | rendering what the format scanned gives back the scanned text with its hex digits lower-cased |
| Sessions.IdStringRoundTrip | session.go:39-60 | an identifier's string, with or without text appended, parses back to the identifier |
| Sessions.IdFromStringCanonical | session.go:45-60 | a string that parses begins with the parsed identifier's string, up to letter case, so each identifier has a single string form |
| Sessions.NewSessionIdAsWritten | session.go:63-69 | byte i is the i-th draw of `rand.Intn(255)`, so no byte is ever `0xff`, and the identifier `ff000000-0000-0000-0000-000000000000` is never returned |
| Sessions.LeadingDigits | session.go:40 | an identifier's string opens with the two lower-case hex digits of its first byte |
| Sessions.MissingIdentifier | session.go:66 | an identifier without a `0xff` byte, which is all `rand.Intn(255)` draws can give, never has the string `ff000000-0000-0000-0000-000000000000` |
| Sessions.NewSessionId | session.go:63-69 | with draws over the full byte range, byte i is the i-th draw |
| Sessions.EveryIdReachable | session.go:63-69 | with full-range draws, every identifier can be generated |
| Sessions.Retrieve | session.go:141-147 | a known identifier yields its stored session, and an unknown one yields no session without an error |
| Sessions.Store | session.go:149-152 | the session is then found under its identifier, and other entries are unchanged |
| Sessions.Delete | session.go:154-157 | the identifier then finds nothing, and other entries are unchanged |
| Sessions.GetValue | session.go:84-87 | a value is found iff the key is present, and it is the stored value |
| Sessions.UpdateValue | session.go:78-81 | the key maps to the new value, other keys keep theirs, and the updated session is what the cache holds under its identifier |
| Sessions.Expire | session.go:91-94 | the session's expiration becomes `now`, it leaves the cache, and other entries are unchanged |
| Sessions.NewUserSession | session.go:104-112 | the new session has the given identifier, only the `user` value, and expires one duration after `now` |
| Sessions.GetSession | session.go:116-126 | a session is found only when the key parses to an identifier under which the cache holds it |
| Sessions.GetSessionIff | session.go:116-126 | a key finds a session iff it parses to an identifier the cache holds |
| Sessions.GetSessionSound | session.go:116-126 | in a cache that files each session under its own identifier, a key finds a session only if the key parses to that session's identifier |
| Sessions.StoreThenGet | session.go:72-74 | a stored session is found again by its identifier's string |
| Sessions.ExpireThenGet | session.go:91-94 | after `Expire`, looking up the identifier's string finds no session, and the session reports `now` as its expiration |
| Sessions.FirstNamed | session.go:160 | `Request.Cookie` finds the first cookie with the name, and finds none only if no cookie has it |
| Sessions.LookupSession | session.go:160-163 | a request is classified as having no non-empty `SID` cookie, a cookie naming no cached session, or a cookie and the session it names |
| Sessions.SessionMiddlewareAsWritten | session.go:159-183 | whatever the cookie and the cache hold, the wrapped handler is called exactly once |
| Sessions.SessionMiddleware | session.go:159-183 | with the intended renewal test, the wrapped handler is still called exactly once in every case |
| Sessions.AttachIff | session.go:159-183 | in both versions, a session is attached iff the cookie names a cached session that has not expired; it keeps that session's identifier and values |
| Sessions.NoCookieNoEffect | session.go:160-161 | without a non-empty `SID` cookie, nothing is attached, no cookie is set and the cache is unchanged |
| Sessions.StaleCookieCleared | session.go:162-166 | a cookie naming no cached session is answered with the cleared cookie, and the cache is unchanged |
| Sessions.ExpiredSessionRemoved | session.go:167-171 | an expired session is not attached and is no longer found by its key, and the cookie is cleared |
| Sessions.RenewalNeverHappens | session.go:172-179 | as written, with a non-negative window, an attached session is never renewed and no cookie is set |
| Sessions.RenewalCounterexample | session.go:174 | a session one second from expiry is left as is by the written middleware, but renewed to three days by the intended one |
| Sessions.SlidingLifetime | session.go:172-179 | with the intended test, an attached session has at least min(window, duration) left, is the cached copy, and any cookie set carries its expiration |
| Sessions.MiddlewareKeepsKeyed | session.go:159-183 | the middleware keeps every cached session filed under its own identifier |
| Contexts.ExpireCurrent | context.go:24-26 | the current session, if any, leaves the cache, and other entries are unchanged |
| Contexts.StartSession | context.go:23-39 | the context gets a new session for the user that expires one duration from `now`; it is stored under its identifier; the old session is removed; other entries are unchanged; the `SID` cookie with its string, path `/`, the domain and the expiration is set on the response, and only its name and value are added to the request. The identifier comes from the full-range generator; every `rand.Intn(255)` draw sequence is also a full-range one, so the contract covers the code as written too |
| Contexts.EndSession | context.go:42-56 | without a session nothing changes; otherwise the session leaves the cache, the emptied epoch cookie with path `/` and the domain is set on the response, only its name and empty value are added to the request, and the context has no session |
| Contexts.EndSessionIdempotent | context.go:42-56 | ending a session twice is the same as ending it once |
| Contexts.StartEndKeepKeyed | context.go:23-56 | both operations keep every cached session filed under its own identifier |
| Contexts.StartedSessionResumes | context.go:23-39 | a later request carrying the cookie `StartSession` set, as name and value, before expiry, gets that session attached with its values |
| Contexts.EndedSessionIsGone | context.go:42-56 | after `EndSession`, a request carrying the earlier cookie's name and value gets no session and is sent that cookie cleared, with no path or domain |

## Left out

- Regular-expression syntax in literal parts is not interpreted. A literal template part is matched verbatim. The Go code splices it into the expression, so characters such as `.` or `+` in a literal would act as regex operators there.
- `..` elements in `path.Join`: `Paths.Join` cleans empty and `.` elements but does not resolve `..`.
- `Sessions.IdFromString` accepts less than `Sscanf` does. It reads exactly two hex digits per byte. `%2x` stops at the first non-hex character, so it also accepts a one-digit field: before a dash, or as the last field at the end of the input or before trailing non-hex text. It also skips leading spaces before each field. The panic when fewer than 16 fields are scanned is unreachable, because `Sscanf` reports an error first, and it is not modelled.
- `Sessions.NewSessionId` takes its draws as a parameter; the random source is not modelled.
- Clock reads are replaced by a single `now` per operation, where the Go code reads the clock up to three times in one middleware call.
- Session cache errors: the in-memory cache never fails, so the model has no error results. Failing `SessionCache` implementations are not modelled.
- `Blueprints.RegisterHandler` and `Blueprints.Register` store each handler as a value taken when it is added. Go keeps `*Handler` pointers in the blueprint, so a change made to a handler after it was added still reaches `RegisterBlueprint` there; that sharing is not modelled.
- Aliasing of one `*Session` between the context, the cache and other holders is not modelled. Sessions are values, and there is one cache for the context and for every session's `cache` field.
- A cookie read from a request has no expiration, which is Go's zero `time.Time`. The model writes it as 0, the same value as the Unix epoch that a cleared cookie carries. Cookie fields other than name, value, path, domain and expiration are not modelled.
- `Contexts.StartSession` and `Contexts.EndSession` take the cookie domain as a parameter rather than computing `net.SplitHostPort` of the `Host` header.
- `ServeHTTP` never sets the context's session cache. The model passes the cache in explicitly.
- These are HTTP and I/O, and are not modelled:
  - `ServeHTTP`'s construction of the context;
  - `Run` (`ListenAndServe`);
  - `NewHTTPApplicationFromJSONFile`, which reads a file and decodes JSON;
  - status codes written by handlers (a reply is the `Handled` or `NotFound404` event).
- What a middleware does besides calling or not calling its inner handler is not modelled.
- The application's middleware list has no setter in the source. It is modelled as a field, which is empty after `NewHTTPApplication`.
- Concurrency between requests is not modelled.
- doc.go holds only package documentation and is not part of this model.

## Findings

| source | as written | input that shows it | evidently intended | confidence | as-written member | corrected member |
|---|---|---|---|---|---|---|
| session.go:174 | renew when `now` is after `expiration + SessionUpdateWindow`; this sits in the branch where `now` is not after `expiration`, so with a non-negative window it never holds | a session expiring at `now + 1`, with the default 3-day duration and 12-hour window: it is attached unchanged and expires a second later | renew when `now` is after `expiration - SessionUpdateWindow`, sliding the session to `now + SessionDuration` | not executed | Sessions.SessionMiddlewareAsWritten (Sessions.RenewalNeverHappens, Sessions.RenewalCounterexample) | Sessions.SessionMiddleware (Sessions.SlidingLifetime) |
| session.go:66 | each byte is `byte(rand.Intn(255))`, a value in 0..254 | the identifier `ff000000-0000-0000-0000-000000000000` is never generated | `rand.Intn(256)`, covering every byte value | not executed | Sessions.NewSessionIdAsWritten (Sessions.MissingIdentifier) | Sessions.NewSessionId (Sessions.EveryIdReachable), used by Contexts.StartSession |

=== FILE: application.dfy ===
/**
 The application (application.go): configuration, the ordered route list, route
 registration from handlers and blueprints, and dispatch of a request to the
 first route that matches it.
 */
module Application {
  import opened Optional
  import opened Methods
  import opened Handlers
  import opened Blueprints
  import opened Routes
  import Paths
  import PathPattern

  /** `HTTPApplicationConfiguration` */
  datatype Configuration = Configuration(name: string, root: string, bindLocation: string)

  /**
   `HTTPApplication`: the not-found handler (`Unset` where Go holds nil, so that
   only a set handler replaces `http.NotFound`), the configuration, app-scope
   middleware and routes.
   */
  datatype App = App(notFound: RequestHandler, config: Configuration,
                     middleware: seq<Middleware>, routes: seq<Route>)

  /** `NewHTTPApplication`: the given configuration, no middleware, no routes, no not-found handler. */
  function NewHTTPApplication(name: string, root: string, bindLocation: string): (app: App)
    ensures app.config.name == name && app.config.root == root && app.config.bindLocation == bindLocation
    ensures app.routes == [] && app.middleware == [] && app.notFound == Unset
  {
    App(Unset, Configuration(name, root, bindLocation), [], [])
  }

  /** Routes are only ever appended: the old list is a prefix of the new one. */
  predicate Extends(app: App, app': App) {
    && |app.routes| <= |app'.routes|
    && app'.routes[..|app.routes|] == app.routes
    && app'.config == app.config && app'.middleware == app.middleware && app'.notFound == app.notFound
  }

  /** `AddRoute`: one more route, whose template is the path exactly as given. */
  function AddRoute(app: App, path: string, handler: RequestHandler, methods: Mask): (app': App)
    ensures Extends(app, app') && |app'.routes| == |app.routes| + 1
    ensures var r := app'.routes[|app.routes|];
            r.path == path && r.segs == PathPattern.Compile(path) && r.handler == handler && r.methods == methods
  {
    app.(routes := app.routes + [NewRoute(path, handler, methods)])
  }

  /**
   The middleware chain of a registered handler, filled scope by scope as the Go
   code fills its slice: application, then blueprint, then handler middleware.
   It stands alone: the functional registration below (`HandlerRoute`,
   `BlueprintRoute`) writes the chain as a concatenation, and this loop form is
   shown to build exactly that concatenation.
   */
  method MiddlewareChain(appScope: seq<Middleware>, bpScope: seq<Middleware>, handlerScope: seq<Middleware>)
    returns (chain: seq<Middleware>)
    ensures |chain| == |appScope| + |bpScope| + |handlerScope|
    ensures chain == appScope + bpScope + handlerScope
  {
    chain := [];
    var i := 0;
    while i < |appScope|
      invariant 0 <= i <= |appScope| && chain == appScope[..i]
    {
      chain := chain + [appScope[i]];
      i := i + 1;
    }
    i := 0;
    while i < |bpScope|
      invariant 0 <= i <= |bpScope| && chain == appScope + bpScope[..i]
    {
      chain := chain + [bpScope[i]];
      i := i + 1;
    }
    i := 0;
    while i < |handlerScope|
      invariant 0 <= i <= |handlerScope| && chain == appScope + bpScope + handlerScope[..i]
    {
      chain := chain + [handlerScope[i]];
      i := i + 1;
    }
    assert appScope[..|appScope|] == appScope;
    assert bpScope[..|bpScope|] == bpScope;
    assert handlerScope[..|handlerScope|] == handlerScope;
  }

  /** The route `RegisterHandler` builds for a handler. */
  function HandlerRoute(app: App, h: Handler): Route
  {
    NewRoute(Paths.Join([app.config.root, h.path]), Chain(app.middleware + h.middleware, h.fn), h.methods)
  }

  /**
   `RegisterHandler`: one more route, at `path.Join(root, handler path)`, running
   the handler inside the application middleware and then its own.
   */
  function RegisterHandler(app: App, h: Handler): (app': App)
    ensures Extends(app, app') && |app'.routes| == |app.routes| + 1
    ensures var r := app'.routes[|app.routes|];
            && r.path == Paths.Join([app.config.root, h.path])
            && r.segs == PathPattern.Compile(r.path)
            && r.handler == Chain(app.middleware, Chain(h.middleware, h.fn))
            && r.methods == h.methods
  {
    ChainAppend(app.middleware, h.middleware, h.fn);
    app.(routes := app.routes + [HandlerRoute(app, h)])
  }

  /** `Register(generator)`: the generated handler, given as `generated`, registered as a handler. */
  function Register(app: App, generated: Handler): (app': App)
    ensures Extends(app, app') && app'.routes == app.routes + [HandlerRoute(app, generated)]
  {
    RegisterHandler(app, generated)
  }

  /** The route `RegisterBlueprint` builds for one blueprint handler. */
  function BlueprintRoute(app: App, bp: Blueprint, h: Handler): Route
  {
    NewRoute(Paths.Join([app.config.root, bp.path, h.path]),
             Chain(app.middleware + bp.middleware + h.middleware, h.fn), h.methods)
  }

  /**
   `RegisterBlueprint`: one route per blueprint handler, in blueprint order, each
   at `path.Join(root, prefix, handler path)` and wrapped in application,
   blueprint and handler middleware, outermost first.
   */
  function RegisterBlueprint(app: App, bp: Blueprint): (app': App)
    ensures Extends(app, app') && |app'.routes| == |app.routes| + |bp.handlers|
    ensures forall i :: 0 <= i < |bp.handlers| ==>
              var r, h := app'.routes[|app.routes| + i], bp.handlers[i];
              && r.path == Paths.Join([app.config.root, bp.path, h.path])
              && r.segs == PathPattern.Compile(r.path)
              && r.handler == Chain(app.middleware, Chain(bp.middleware, Chain(h.middleware, h.fn)))
              && r.methods == h.methods
  {
    var added := seq(|bp.handlers|, i requires 0 <= i < |bp.handlers| => BlueprintRoute(app, bp, bp.handlers[i]));
    forall i | 0 <= i < |bp.handlers|
      ensures added[i].handler == Chain(app.middleware, Chain(bp.middleware, Chain(bp.handlers[i].middleware, bp.handlers[i].fn)))
    {
      var h := bp.handlers[i];
      ChainAppend(app.middleware + bp.middleware, h.middleware, h.fn);
      ChainAppend(app.middleware, bp.middleware, Chain(h.middleware, h.fn));
    }
    app.(routes := app.routes + added)
  }

  /** What the route scan of `dispatch` ends with. */
  datatype Scan = Found(index: nat, vars: map<string, string>)
                | MethodRejected(index: nat, vars: map<string, string>)
                | Exhausted(vars: map<string, string>)

  /**
   The loop of `dispatch` from route `i` on: the first route whose
   `matchesRequest` holds ends the scan, with its handler when
   `methodSupported` holds and at the `break` otherwise.
   */
  function ScanRoutes(routes: seq<Route>, req: Request, vars: map<string, string>, i: nat): Scan
    decreases |routes| - i
  {
    if i >= |routes| then Exhausted(vars)
    else
      var (matched, vars') := MatchesRequest(routes[i], req, vars);
      if matched then
        if MethodSupported(routes[i], req) then Found(i, vars') else MethodRejected(i, vars')
      else ScanRoutes(routes, req, vars', i + 1)
  }

  /** How a request is answered: by a route's handler, by the not-found handler, or by the standard 404. */
  datatype Outcome = Invoked(index: nat, vars: map<string, string>)
                   | NotFoundHandled(vars: map<string, string>)
                   | DefaultNotFound(vars: map<string, string>)

  /** `dispatch`: the scanned route's handler, or the not-found handler if set, else the standard 404. */
  function Dispatch(app: App, req: Request, vars: map<string, string>): Outcome
  {
    match ScanRoutes(app.routes, req, vars, 0)
    case Found(i, v) => Invoked(i, v)
    case MethodRejected(_, v) => if app.notFound != Unset then NotFoundHandled(v) else DefaultNotFound(v)
    case Exhausted(v) => if app.notFound != Unset then NotFoundHandled(v) else DefaultNotFound(v)
  }

  /** Whether route `r` matches the request (the boolean of `matchesRequest`). */
  predicate Matches(r: Route, req: Request, vars: map<string, string>) {
    MatchesRequest(r, req, vars).0
  }

  /**
   `dispatch` as the Go loop runs it: scan the routes in order and stop at the
   first one that matches.
   */
  method DispatchLoop(app: App, req: Request, vars: map<string, string>) returns (out: Outcome)
    ensures out == Dispatch(app, req, vars)
    ensures out.Invoked? ==> out.index < |app.routes| && Matches(app.routes[out.index], req, vars)
  {
    var current := vars;
    var i := 0;
    while i < |app.routes|
      invariant 0 <= i <= |app.routes| && current == vars
      invariant ScanRoutes(app.routes, req, vars, 0) == ScanRoutes(app.routes, req, vars, i)
    {
      var (matched, vars') := MatchesRequest(app.routes[i], req, vars);
      if matched {
        if MethodSupported(app.routes[i], req) {
          return Invoked(i, vars');
        } else {
          current := vars';
          break;
        }
      }
      i := i + 1;
    }
    if app.notFound != Unset {
      out := NotFoundHandled(current);
    } else {
      out := DefaultNotFound(current);
    }
  }

  /** One step of the scan: the route at `i` ends it iff it matches, and a miss leaves the variables alone. */
  lemma ScanStep(routes: seq<Route>, req: Request, vars: map<string, string>, i: nat)
    requires i < |routes|
    ensures Matches(routes[i], req, vars) ==>
              ScanRoutes(routes, req, vars, i) == Found(i, MatchesRequest(routes[i], req, vars).1)
    ensures !Matches(routes[i], req, vars) ==>
              ScanRoutes(routes, req, vars, i) == ScanRoutes(routes, req, vars, i + 1)
  {
    if Matches(routes[i], req, vars) {
      MatchImpliesMethodSupported(routes[i], req, vars);
    } else {
      VarsUntouched(routes[i], req, vars);
    }
  }

  /** The scan never ends at the `break`. */
  lemma {:induction false} ScanNeverRejects(routes: seq<Route>, req: Request, vars: map<string, string>, i: nat)
    requires i <= |routes|
    ensures !ScanRoutes(routes, req, vars, i).MethodRejected?
    decreases |routes| - i
  {
    if i < |routes| {
      ScanStep(routes, req, vars, i);
      if !Matches(routes[i], req, vars) {
        ScanNeverRejects(routes, req, vars, i + 1);
      }
    }
  }

  /** A scan from `i` that finds a route finds the first matching one at or after `i`, with its variables. */
  lemma {:induction false} ScanFound(routes: seq<Route>, req: Request, vars: map<string, string>, i: nat)
    requires i <= |routes| && ScanRoutes(routes, req, vars, i).Found?
    ensures var k := ScanRoutes(routes, req, vars, i).index;
            && i <= k < |routes|
            && Matches(routes[k], req, vars)
            && ScanRoutes(routes, req, vars, i).vars == MatchesRequest(routes[k], req, vars).1
            && forall j :: i <= j < k ==> !Matches(routes[j], req, vars)
    decreases |routes| - i
  {
    ScanStep(routes, req, vars, i);
    if !Matches(routes[i], req, vars) {
      ScanFound(routes, req, vars, i + 1);
    }
  }

  /** A scan from `i` that runs out has met no matching route and kept the variables. */
  lemma {:induction false} ScanExhausted(routes: seq<Route>, req: Request, vars: map<string, string>, i: nat)
    requires i <= |routes| && ScanRoutes(routes, req, vars, i).Exhausted?
    ensures ScanRoutes(routes, req, vars, i).vars == vars
    ensures forall j :: i <= j < |routes| ==> !Matches(routes[j], req, vars)
    decreases |routes| - i
  {
    if i < |routes| {
      ScanStep(routes, req, vars, i);
      ScanExhausted(routes, req, vars, i + 1);
    }
  }

  /** The three lemmas together, for a scan from the first route. */
  lemma ScanSpec(routes: seq<Route>, req: Request, vars: map<string, string>)
    ensures var s := ScanRoutes(routes, req, vars, 0);
            && !s.MethodRejected?
            && (s.Found? ==> s.index < |routes|
                              && Matches(routes[s.index], req, vars)
                              && s.vars == MatchesRequest(routes[s.index], req, vars).1
                              && forall j :: 0 <= j < s.index ==> !Matches(routes[j], req, vars))
            && (s.Exhausted? ==> s.vars == vars && forall j :: 0 <= j < |routes| ==> !Matches(routes[j], req, vars))
  {
    ScanNeverRejects(routes, req, vars, 0);
    var s := ScanRoutes(routes, req, vars, 0);
    if s.Found? {
      ScanFound(routes, req, vars, 0);
    } else if s.Exhausted? {
      ScanExhausted(routes, req, vars, 0);
    }
  }

  /**
   The `break` for an unsupported method is unreachable: `matchesRequest`
   already includes the method gate, so the scan never stops at a route whose
   method fails.
   */
  lemma BreakUnreachable(app: App, req: Request, vars: map<string, string>)
    ensures !ScanRoutes(app.routes, req, vars, 0).MethodRejected?
  {
    ScanSpec(app.routes, req, vars);
  }

  /**
   `dispatch` invokes route `i` iff `i` is the lowest index whose route matches,
   with the variables that route's match produced.
   */
  lemma DispatchFirstMatch(app: App, req: Request, vars: map<string, string>, i: nat)
    ensures Dispatch(app, req, vars).Invoked? && Dispatch(app, req, vars).index == i
            <==> (i < |app.routes| && Matches(app.routes[i], req, vars)
                  && forall j :: 0 <= j < i ==> !Matches(app.routes[j], req, vars))
    ensures Dispatch(app, req, vars).Invoked? && Dispatch(app, req, vars).index == i ==>
              Dispatch(app, req, vars).vars == MatchesRequest(app.routes[i], req, vars).1
  {
    ScanSpec(app.routes, req, vars);
  }

  /**
   Without a matching route the not-found handler answers if one is set, and
   the standard 404 otherwise; the variables are untouched either way.
   */
  lemma DispatchNotFound(app: App, req: Request, vars: map<string, string>)
    ensures !Dispatch(app, req, vars).Invoked? <==> forall j :: 0 <= j < |app.routes| ==> !Matches(app.routes[j], req, vars)
    ensures !Dispatch(app, req, vars).Invoked? ==>
              Dispatch(app, req, vars) == (if app.notFound != Unset then NotFoundHandled(vars) else DefaultNotFound(vars))
  {
    ScanSpec(app.routes, req, vars);
  }

  /**
   A route whose mask excludes the request method is never invoked: the scan
   passes over it and goes on to the later routes.
   */
  lemma WrongMethodSkipped(app: App, req: Request, vars: map<string, string>, i: nat)
    requires i < |app.routes| && GetHTTPMethods(req.verb) & app.routes[i].methods == 0
    ensures !(Dispatch(app, req, vars).Invoked? && Dispatch(app, req, vars).index == i)
    ensures ScanRoutes(app.routes, req, vars, i) == ScanRoutes(app.routes, req, vars, i + 1)
  {
    DispatchFirstMatch(app, req, vars, i);
  }

  /** Of two routes that both match, the one registered first wins; swapping them swaps the winner. */
  lemma RegistrationOrderDecides(app: App, r1: Route, r2: Route, req: Request, vars: map<string, string>)
    requires app.routes == [] && Matches(r1, req, vars) && Matches(r2, req, vars)
    ensures Dispatch(app.(routes := [r1, r2]), req, vars) == Invoked(0, MatchesRequest(r1, req, vars).1)
    ensures Dispatch(app.(routes := [r2, r1]), req, vars) == Invoked(0, MatchesRequest(r2, req, vars).1)
  {
  }

  /** What serving a request runs: the chosen route's composed handler, the not-found handler, or the 404. */
  function Serve(app: App, req: Request, vars: map<string, string>): seq<Event>
  {
    match Dispatch(app, req, vars)
    case Invoked(i, _) => if i < |app.routes| then Run(app.routes[i].handler) else []
    case NotFoundHandled(_) => Run(app.notFound)
    case DefaultNotFound(_) => [NotFound404]
  }

  /**
   Middleware ordering end to end: for a blueprint route whose application,
   blueprint and handler middleware all call inward, serving a request that
   reaches it runs the before-halves in the order application, blueprint,
   handler, then the handler, then the after-halves in the reverse order.
   */
  lemma BlueprintMiddlewareOrder(app: App, bp: Blueprint, k: nat, id: nat, req: Request, vars: map<string, string>)
    requires k < |bp.handlers| && bp.handlers[k].fn == Terminal(id)
    requires AllCallNext(app.middleware + bp.middleware + bp.handlers[k].middleware)
    requires var app' := RegisterBlueprint(app, bp);
             Dispatch(app', req, vars).Invoked? && Dispatch(app', req, vars).index == |app.routes| + k
    ensures var ms := app.middleware + bp.middleware + bp.handlers[k].middleware;
            Serve(RegisterBlueprint(app, bp), req, vars) == Befores(ms) + [Handled(id)] + AftersReversed(ms)
  {
    var app' := RegisterBlueprint(app, bp);
    var h := bp.handlers[k];
    var ms := app.middleware + bp.middleware + h.middleware;
    ChainAppend(app.middleware + bp.middleware, h.middleware, h.fn);
    ChainAppend(app.middleware, bp.middleware, Chain(h.middleware, h.fn));
    assert app'.routes[|app.routes| + k].handler == Chain(ms, Terminal(id));
    RunPassThrough(ms, id);
  }
}

=== FILE: blueprint.dfy ===
/**
 Blueprints (blueprint.go): a path prefix with its own handlers and middleware,
 staged before the application merges them into routes. Every operation only
 appends to one list.
 */
module Blueprints {
  import opened Handlers

  datatype Blueprint = Blueprint(path: string, handlers: seq<Handler>, middleware: seq<Middleware>)

  /** `NewBlueprint`: the prefix, with no handlers and no middleware. */
  function NewBlueprint(path: string): (bp: Blueprint)
    ensures bp.path == path && bp.handlers == [] && bp.middleware == []
  {
    Blueprint(path, [], [])
  }

  /** `RegisterHandler`: the handler goes last; earlier handlers, the middleware and the prefix stay. */
  function RegisterHandler(bp: Blueprint, h: Handler): (bp': Blueprint)
    ensures |bp'.handlers| == |bp.handlers| + 1
    ensures forall i :: 0 <= i < |bp.handlers| ==> bp'.handlers[i] == bp.handlers[i]
    ensures bp'.handlers[|bp.handlers|] == h
    ensures bp'.path == bp.path && bp'.middleware == bp.middleware
  {
    bp.(handlers := bp.handlers + [h])
  }

  /**
   `Register(generator)`: the handler the generator returns, given here as
   `generated`, is registered exactly as `RegisterHandler` would.
   */
  function Register(bp: Blueprint, generated: Handler): (bp': Blueprint)
    ensures bp'.handlers == bp.handlers + [generated]
    ensures bp'.path == bp.path && bp'.middleware == bp.middleware
  {
    RegisterHandler(bp, generated)
  }

  /** `AddMiddleware`: the middleware goes last; earlier middleware, the handlers and the prefix stay. */
  function AddMiddleware(bp: Blueprint, m: Middleware): (bp': Blueprint)
    ensures |bp'.middleware| == |bp.middleware| + 1
    ensures forall i :: 0 <= i < |bp.middleware| ==> bp'.middleware[i] == bp.middleware[i]
    ensures bp'.middleware[|bp.middleware|] == m
    ensures bp'.path == bp.path && bp'.handlers == bp.handlers
  {
    bp.(middleware := bp.middleware + [m])
  }
}

=== FILE: cases.dfy ===
/**
 The templates of the repository's tests, stated for every choice of names and
 literal parts of the same shape: which segments and which regular expression
 each one compiles to.
 */
module PatternCases {
  import opened Strings
  import opened PathPattern
  import opened MatchShapes

  /** A literal part as the tests write them: non-empty, slash-free, and not starting with `<`. */
  predicate PlainPart(a: string) {
    |a| >= 1 && NoSlash(a) && a[0] != '<'
  }

  lemma PlainPartIsLiteral(a: string)
    requires PlainPart(a)
    ensures SegmentOf(a) == Lit(a)
  {
  }

  /**
   A literal part as it can close a template: like a plain part, or empty,
   which is what a trailing slash leaves after the last slash.
   */
  predicate LiteralPart(a: string) {
    NoSlash(a) && (a == "" || a[0] != '<')
  }

  lemma LiteralPartIsLiteral(a: string)
    requires LiteralPart(a)
    ensures SegmentOf(a) == Lit(a)
  {
  }

  /** A valid variable part has no slash, so it stays one part. */
  lemma VariableTextNoSlash(name: string, k: Kind)
    requires ValidName(name)
    ensures NoSlash(VariableText(name, k))
  {
    var v := VariableText(name, k);
    assert v == "<" + name + ":" + KindName(k) + ">";
    assert NoSlash(KindName(k));
    forall i | 0 <= i < |v|
      ensures v[i] != '/'
    {
      if 1 <= i < 1 + |name| {
        assert v[i] == name[i - 1];
      }
    }
  }

  lemma JoinSlashHead(parts: seq<string>)
    requires |parts| >= 1 && |parts[0]| >= 1
    ensures |JoinSlash(parts)| >= 1 && JoinSlash(parts)[0] == parts[0][0]
  {
    if |parts| > 1 {
      JoinSlashCons(parts[0], parts[1..]);
      assert [parts[0]] + parts[1..] == parts;
    }
  }

  /** A template written as `/` and slash-free parts, the first non-empty, splits back into those parts. */
  lemma RootedTemplateParts(parts: seq<string>)
    requires |parts| >= 1 && |parts[0]| >= 1
    requires forall i :: 0 <= i < |parts| ==> NoSlash(parts[i])
    ensures TemplateParts("/" + JoinSlash(parts)) == parts
  {
    JoinSlashHead(parts);
    var rest := JoinSlash(parts);
    var s := "/" + rest;
    assert s[0] == '/' && s[1..] == rest;
    assert TrimLeftSlash(rest) == rest;
    SplitJoinSlash(parts);
  }

  /**
   route_test.go, application_test.go, blueprint_test.go: a template of literal
   parts followed by one variable compiles to those literals and one capture.
   */
  lemma CompileLiteralsThenVariable(t: string, lits: seq<string>, name: string, k: Kind)
    requires forall i :: 0 <= i < |lits| ==> PlainPart(lits[i])
    requires ValidName(name)
    requires TemplateParts(t) == lits + [VariableText(name, k)]
    ensures Compile(t) == LitSegs(lits) + [Capture(name, k)]
  {
    LiteralPartsThenVariable(lits, name, k);
  }

  lemma LiteralPartsThenVariable(lits: seq<string>, name: string, k: Kind)
    requires forall i :: 0 <= i < |lits| ==> PlainPart(lits[i])
    requires ValidName(name)
    ensures CompileParts(lits + [VariableText(name, k)]) == LitSegs(lits) + [Capture(name, k)]
  {
    var parts := lits + [VariableText(name, k)];
    var segs := CompileParts(parts);
    var want := LitSegs(lits) + [Capture(name, k)];
    forall i | 0 <= i < |segs|
      ensures segs[i] == want[i]
    {
      if i < |lits| {
        assert parts[i] == lits[i];
        PlainPartIsLiteral(lits[i]);
      } else {
        assert parts[i] == VariableText(name, k);
        ParseVariableText(name, k);
      }
    }
  }

  /** The rooted form `/lit/.../<name:kind>` of such a template, with any number of literals. */
  lemma CompileRootedLiteralsThenVariable(lits: seq<string>, name: string, k: Kind)
    requires forall i :: 0 <= i < |lits| ==> PlainPart(lits[i])
    requires ValidName(name)
    ensures Compile("/" + JoinSlash(lits + [VariableText(name, k)])) == LitSegs(lits) + [Capture(name, k)]
  {
    var v := VariableText(name, k);
    var parts := lits + [v];
    VariableTextNoSlash(name, k);
    AppendedPartsNoSlash(lits, v);
    RootedTemplateParts(parts);
    CompileLiteralsThenVariable("/" + JoinSlash(parts), lits, name, k);
  }

  lemma AppendedPartsNoSlash(lits: seq<string>, v: string)
    requires forall i :: 0 <= i < |lits| ==> PlainPart(lits[i])
    requires NoSlash(v) && |v| >= 1
    ensures var parts := lits + [v];
            |parts| >= 1 && |parts[0]| >= 1 && forall i :: 0 <= i < |parts| ==> NoSlash(parts[i])
  {
    var parts := lits + [v];
    forall i | 0 <= i < |parts|
      ensures NoSlash(parts[i])
    {
      if i < |lits| {
        assert parts[i] == lits[i];
      }
    }
    if |lits| > 0 {
      assert parts[0] == lits[0];
    } else {
      assert parts[0] == v;
    }
  }

  /**
   route_test.go: `/<name:kind>/lit` compiles to one capture and one literal;
   with `lit` empty this is the trailing-slash template `/<name:kind>/`.
   */
  lemma CompileVariableThenLiteral(name: string, k: Kind, lit: string)
    requires ValidName(name) && LiteralPart(lit)
    ensures Compile("/" + JoinSlash([VariableText(name, k), lit])) == [Capture(name, k), Lit(lit)]
  {
    var v := VariableText(name, k);
    var parts := [v, lit];
    VariableTextNoSlash(name, k);
    RootedTemplateParts(parts);
    var segs := Compile("/" + JoinSlash(parts));
    ParseVariableText(name, k);
    LiteralPartIsLiteral(lit);
    assert segs[0] == SegmentOf(v);
    assert segs[1] == SegmentOf(lit);
  }

  /**
   route_test.go: a template of literal parts only, such as `/test` or `/test/`,
   becomes the anchored expression of those parts verbatim.
   */
  lemma PatternOfLiterals(lits: seq<string>)
    requires |lits| >= 1 && PlainPart(lits[0])
    requires forall i :: 0 <= i < |lits| ==> LiteralPart(lits[i])
    ensures PathPatternOf("/" + JoinSlash(lits)) == "^/" + JoinSlash(lits) + "$"
  {
    var t := "/" + JoinSlash(lits);
    forall i | 0 <= i < |lits|
      ensures NoSlash(lits[i])
    {
    }
    RootedTemplateParts(lits);
    LiteralPartsCompile(lits);
    LitSegsPatterns(lits);
    assert Compile(t) == CompileParts(lits);
  }

  lemma LiteralPartsCompile(lits: seq<string>)
    requires forall i :: 0 <= i < |lits| ==> LiteralPart(lits[i])
    ensures CompileParts(lits) == LitSegs(lits)
  {
    forall i | 0 <= i < |lits|
      ensures CompileParts(lits)[i] == LitSegs(lits)[i]
    {
      LiteralPartIsLiteral(lits[i]);
    }
  }

  lemma LitSegsPatterns(lits: seq<string>)
    ensures SegPatterns(LitSegs(lits)) == lits
  {
  }

  /**
   route_test.go: `/a/<name:kind>/b` becomes the expression `^/a/(?P<name>K)/b$`,
   with `K` the kind's pattern: literal parts verbatim, the variable as a named group.
   An empty `b` is the trailing slash of `/a/<name:kind>/`.
   */
  lemma PatternLiteralVariableLiteral(a: string, name: string, k: Kind, b: string)
    requires PlainPart(a) && LiteralPart(b) && ValidName(name)
    ensures PathPatternOf("/" + JoinSlash([a, VariableText(name, k), b]))
            == "^/" + JoinSlash([a, "(?P<" + name + ">" + KindPattern(k) + ")", b]) + "$"
  {
    var v := VariableText(name, k);
    var parts := [a, v, b];
    VariableTextNoSlash(name, k);
    RootedTemplateParts(parts);
    var segs := Compile("/" + JoinSlash(parts));
    PlainPartIsLiteral(a);
    LiteralPartIsLiteral(b);
    ParseVariableText(name, k);
    assert segs[0] == Lit(a) && segs[1] == Capture(name, k) && segs[2] == Lit(b);
    assert SegPatterns(segs) == [a, "(?P<" + name + ">" + KindPattern(k) + ")", b];
  }
}

/**
 The request paths of route_test.go against their templates, for every choice
 of literals, names and captured text of the same shape.
 */
module RouteCases {
  import opened Strings
  import opened Methods
  import opened Handlers
  import opened PathPattern
  import opened Matcher
  import opened Routes
  import opened MatchShapes
  import opened PatternCases

  /** The text after the literal prefix when `path` starts with it. */
  function Rest(prefix: string, path: string): string
    requires |prefix| <= |path|
  {
    path[|prefix|..]
  }

  /**
   route_test.go: a route `/lit/.../<name:kind>`, with any number of literals
   (none gives `/<name:kind>`), asked with an admitted method matches exactly
   the paths that start with `/lit/.../` and continue with text the kind
   accepts, and then binds only `name`, to all of that text.
   */
  lemma RouteMatchLiteralsThenVariable(lits: seq<string>, name: string, k: Kind, h: RequestHandler, methods: Mask,
                                       req: Request, vars: map<string, string>)
    requires forall i :: 0 <= i < |lits| ==> PlainPart(lits[i])
    requires ValidName(name) && GetHTTPMethods(req.verb) & methods != 0
    ensures var route := NewRoute("/" + JoinSlash(lits + [VariableText(name, k)]), h, methods);
            var p := LitPrefix(lits);
            MatchesRequest(route, req, vars) ==
              if |p| <= |req.path| && req.path[..|p|] == p && Fits(Capture(name, k), Rest(p, req.path))
              then (true, map[name := Rest(p, req.path)]) else (false, vars)
  {
    var route := NewRoute("/" + JoinSlash(lits + [VariableText(name, k)]), h, methods);
    CompileRootedLiteralsThenVariable(lits, name, k);
    RouteOfLiteralsThenCapture(route, req, vars, lits, Capture(name, k));
  }

  /**
   route_test.go: a route `/<name:kind>/lit` asked with an admitted method
   matches exactly the paths `/x/lit` whose `x` the kind accepts, and binds
   `name` to all of `x`.
   */
  lemma RouteMatchVariableThenLiteral(name: string, k: Kind, lit: string, h: RequestHandler, methods: Mask,
                                      req: Request, vars: map<string, string>)
    requires ValidName(name) && LiteralPart(lit) && GetHTTPMethods(req.verb) & methods != 0
    ensures var route := NewRoute("/" + JoinSlash([VariableText(name, k), lit]), h, methods);
            MatchesRequest(route, req, vars) ==
              if CaptureThenLiteralShape(Capture(name, k), lit, req.path)
              then (true, map[name := Middle(req.path, lit)]) else (false, vars)
  {
    var route := NewRoute("/" + JoinSlash([VariableText(name, k), lit]), h, methods);
    CompileVariableThenLiteral(name, k, lit);
    RouteOfCaptureThenLiteral(route, req, vars, Capture(name, k), lit);
  }

  /**
   route_test.go (`/hello/something/something` against `/<testvar:path>/something`,
   and `/hello/something/something/` against `/<testvar:path>/`, where `lit` is
   empty): the lazy `path` capture still takes every slash-containing text
   before the final `/lit`, because the pattern is anchored at the end.
   */
  lemma PathCaptureTakesAllButLastLiteral(name: string, lit: string, x: string, h: RequestHandler,
                                          vars: map<string, string>)
    requires ValidName(name) && LiteralPart(lit)
    requires |x| >= 1 && forall i :: 0 <= i < |x| ==> x[i] != '\n'
    ensures MatchesRequest(NewRoute("/" + JoinSlash([VariableText(name, Path), lit]), h, Get),
                           Request("GET", "/" + x + "/" + lit), vars)
            == (true, map[name := x])
  {
    var path := "/" + x + "/" + lit;
    assert Middle(path, lit) == x;
    assert path[|path| - |lit| - 1..] == "/" + lit;
    RouteMatchVariableThenLiteral(name, Path, lit, h, Get, Request("GET", path), vars);
  }

  /**
   route_test.go (`/hello/something/something` against `/<testvar:path>`): a
   route that is a single `path` variable binds the whole path after the
   leading slash, slashes included.
   */
  lemma PathCaptureTakesWholePath(name: string, x: string, h: RequestHandler, vars: map<string, string>)
    requires ValidName(name)
    requires |x| >= 1 && forall i :: 0 <= i < |x| ==> x[i] != '\n'
    ensures MatchesRequest(NewRoute("/" + VariableText(name, Path), h, Get), Request("GET", "/" + x), vars)
            == (true, map[name := x])
  {
    var v := VariableText(name, Path);
    var lits: seq<string> := [];
    assert lits + [v] == [v] && JoinSlash([v]) == v;
    var path := "/" + x;
    assert LitPrefix(lits) == "/" && path[..1] == "/" && Rest("/", path) == x;
    RouteMatchLiteralsThenVariable(lits, name, Path, h, Get, Request("GET", path), vars);
  }

  /**
   route_test.go (`/hello/something/something` against `/<testvar:string>/something`):
   a `string` capture cannot take text with a slash, so such a path does not match.
   */
  lemma StringCaptureRejectsSlash(name: string, lit: string, x: string, h: RequestHandler, vars: map<string, string>)
    requires ValidName(name) && LiteralPart(lit)
    requires exists i :: 0 <= i < |x| && x[i] == '/'
    ensures !MatchesRequest(NewRoute("/" + JoinSlash([VariableText(name, Str), lit]), h, Get),
                            Request("GET", "/" + x + "/" + lit), vars).0
  {
    var path := "/" + x + "/" + lit;
    assert Middle(path, lit) == x;
    RouteMatchVariableThenLiteral(name, Str, lit, h, Get, Request("GET", path), vars);
  }

  /**
   route_test.go (`/test/something` against `/test/<testvar:int>`): an `int`
   capture needs digits only, so text with a non-digit does not match.
   */
  lemma IntCaptureRejectsNonDigit(lits: seq<string>, name: string, x: string, h: RequestHandler, vars: map<string, string>)
    requires forall i :: 0 <= i < |lits| ==> PlainPart(lits[i])
    requires ValidName(name)
    requires exists i :: 0 <= i < |x| && !IsDigit(x[i])
    ensures !MatchesRequest(NewRoute("/" + JoinSlash(lits + [VariableText(name, Int)]), h, Get),
                            Request("GET", LitPrefix(lits) + x), vars).0
  {
    var p := LitPrefix(lits);
    var path := p + x;
    assert path[..|p|] == p && Rest(p, path) == x;
    NonDigitIsNoInt(name, x);
    RouteMatchLiteralsThenVariable(lits, name, Int, h, Get, Request("GET", path), vars);
  }

  lemma NonDigitIsNoInt(name: string, x: string)
    requires exists i :: 0 <= i < |x| && !IsDigit(x[i])
    ensures !Fits(Capture(name, Int), x)
  {
  }

  /** route_test.go (`/test/9` against `/test/<testvar:int>`): digits after the prefix are bound to the name. */
  lemma IntCaptureBindsDigits(lits: seq<string>, name: string, x: string, h: RequestHandler, vars: map<string, string>)
    requires forall i :: 0 <= i < |lits| ==> PlainPart(lits[i])
    requires ValidName(name)
    requires |x| >= 1 && forall i :: 0 <= i < |x| ==> IsDigit(x[i])
    ensures MatchesRequest(NewRoute("/" + JoinSlash(lits + [VariableText(name, Int)]), h, Get),
                           Request("GET", LitPrefix(lits) + x), vars)
            == (true, map[name := x])
  {
    var p := LitPrefix(lits);
    var path := p + x;
    assert path[..|p|] == p && Rest(p, path) == x;
    RouteMatchLiteralsThenVariable(lits, name, Int, h, Get, Request("GET", path), vars);
  }
}

/**
 The applications of application_test.go and blueprint_test.go: a handler under
 a root, or a blueprint handler under a prefix, answered or refused, for every
 choice of literal parts and names of the same shape.
 */
module AppCases {
  import opened Strings
  import opened Paths
  import opened Methods
  import opened Handlers
  import Blueprints
  import opened PathPattern
  import opened Matcher
  import opened Routes
  import opened Application
  import opened MatchShapes
  import opened PatternCases
  import opened RouteCases

  /** A part `path.Join` keeps unchanged (neither `.` nor `..`) and the route compiler reads as a literal. */
  predicate Name(a: string) {
    PlainPart(a) && a != "." && a != ".."
  }

  /** A trailing slash adds no segment. */
  lemma SegmentsOfRootedDir(parts: seq<string>)
    requires |parts| >= 1 && forall i :: 0 <= i < |parts| ==> Kept(parts[i]) && NoSlash(parts[i])
    ensures Segments("/" + JoinSlash(parts) + "/") == parts
  {
    var x := "/" + JoinSlash(parts);
    SegmentsOfRooted(parts);
    SegmentsAtSlash(x, "");
    assert x + "/" + "" == x + "/";
    SegmentsOfEmpty();
  }

  /** The parts of a handler template `/u/<name:kind>`. */
  lemma HandlerPathSegments(u: string, name: string, k: Kind)
    requires Name(u) && ValidName(name)
    ensures Segments("/" + JoinSlash([u, VariableText(name, k)])) == [u, VariableText(name, k)]
  {
    VariableTextNoSlash(name, k);
    SegmentsOfRooted([u, VariableText(name, k)]);
  }

  /**
   The route `RegisterHandler` builds under root `/r/` for handler path
   `/u/<name:kind>` compiles to the literals `r`, `u` and the capture.
   */
  lemma RootedHandlerPattern(r: string, u: string, name: string, k: Kind)
    requires Name(r) && Name(u) && ValidName(name)
    ensures Compile(Join(["/" + JoinSlash([r]) + "/", "/" + JoinSlash([u, VariableText(name, k)])]))
            == LitSegs([r, u]) + [Capture(name, k)]
  {
    var v := VariableText(name, k);
    var root := "/" + JoinSlash([r]) + "/";
    var hp := "/" + JoinSlash([u, v]);
    var elems := [root, hp];
    SegmentsOfRootedDir([r]);
    HandlerPathSegments(u, name, k);
    AllSegmentsPair(root, hp);
    assert AllSegments(elems) == [r, u] + [v];
    CompileJoin(elems, [r, u], name, k);
  }

  /** Elements whose segments are plain literals and then a variable join into a template compiling to those. */
  lemma CompileJoin(elems: seq<string>, lits: seq<string>, name: string, k: Kind)
    requires |lits| >= 1 && forall i :: 0 <= i < |lits| ==> PlainPart(lits[i])
    requires ValidName(name)
    requires AllSegments(elems) == lits + [VariableText(name, k)]
    ensures Compile(Join(elems)) == LitSegs(lits) + [Capture(name, k)]
  {
    JoinSplitsIntoSegments(elems);
    CompileLiteralsThenVariable(Join(elems), lits, name, k);
  }

  lemma AllSegmentsPair(a: string, b: string)
    ensures AllSegments([a, b]) == Segments(a) + Segments(b)
  {
    assert [a, b][1..] == [b] && [b][1..] == [];
    assert AllSegments([b]) == Segments(b) + [] == Segments(b);
  }

  lemma AllSegmentsTriple(a: string, b: string, c: string)
    ensures AllSegments([a, b, c]) == Segments(a) + Segments(b) + Segments(c)
  {
    assert [a, b, c][1..] == [b, c];
    AllSegmentsPair(b, c);
  }

  /** An application with exactly one route and no not-found handler dispatches to it iff it matches. */
  lemma OneRouteDispatch(app: App, req: Request, vars: map<string, string>)
    requires |app.routes| == 1 && app.notFound == Unset
    ensures Dispatch(app, req, vars) ==
              if Matches(app.routes[0], req, vars) then Invoked(0, MatchesRequest(app.routes[0], req, vars).1)
              else DefaultNotFound(vars)
  {
    DispatchFirstMatch(app, req, vars, 0);
    DispatchNotFound(app, req, vars);
  }

  /**
   application_test.go: an application rooted at `/r/` with one GET handler at
   `/u/<name:int>` answers a GET request exactly when its path is `/r/u/`
   followed by digits, runs the handler with `name` bound to those digits, and
   replies with the standard 404 otherwise, so `/not-r/u/...` and `/r/u/abc...`
   are refused.
   */
  lemma HandlingCase(appName: string, bind: string, r: string, u: string, name: string, id: nat,
                     path: string, vars: map<string, string>)
    requires Name(r) && Name(u) && ValidName(name)
    ensures var app := RegisterHandler(NewHTTPApplication(appName, "/" + r + "/", bind),
                                       Handler(Terminal(id), [], "/" + JoinSlash([u, VariableText(name, Int)]), Get));
            var req := Request("GET", path);
            var p := LitPrefix([r, u]);
            var ok := |p| <= |path| && path[..|p|] == p && Fits(Capture(name, Int), Rest(p, path));
            && Dispatch(app, req, vars) == (if ok then Invoked(0, map[name := Rest(p, path)]) else DefaultNotFound(vars))
            && Serve(app, req, vars) == (if ok then [Handled(id)] else [NotFound404])
  {
    var h := Handler(Terminal(id), [], "/" + JoinSlash([u, VariableText(name, Int)]), Get);
    var app := RegisterHandler(NewHTTPApplication(appName, "/" + r + "/", bind), h);
    assert JoinSlash([r]) == r;
    RootedHandlerPattern(r, u, name, Int);
    var route := app.routes[0];
    assert route.segs == LitSegs([r, u]) + [Capture(name, Int)];
    assert route.handler == Terminal(id) && route.methods == Get;
    OneTerminalRoute(app, Request("GET", path), vars, [r, u], Capture(name, Int), id);
  }

  /**
   An application whose only route is literals then a capture around a
   terminal handler, with no not-found handler, asked with an admitted method:
   the handler runs exactly on the paths the route matches.
   */
  lemma OneTerminalRoute(app: App, req: Request, vars: map<string, string>, lits: seq<string>, c: Seg, id: nat)
    requires |app.routes| == 1 && app.notFound == Unset
    requires |lits| >= 1 && c.Capture? && app.routes[0].segs == LitSegs(lits) + [c]
    requires app.routes[0].handler == Terminal(id) && GetHTTPMethods(req.verb) & app.routes[0].methods != 0
    ensures var p := LitPrefix(lits);
            var ok := |p| <= |req.path| && req.path[..|p|] == p && Fits(c, Rest(p, req.path));
            && Dispatch(app, req, vars) == (if ok then Invoked(0, map[c.name := Rest(p, req.path)]) else DefaultNotFound(vars))
            && Serve(app, req, vars) == (if ok then [Handled(id)] else [NotFound404])
  {
    RouteOfLiteralsThenCapture(app.routes[0], req, vars, lits, c);
    OneRouteDispatch(app, req, vars);
  }

  /**
   The route `RegisterBlueprint` builds under root `/` and prefix `/b` for
   handler path `/f/<name:kind>` compiles to the literals `b`, `f` and the capture.
   */
  lemma BlueprintHandlerPattern(b: string, f: string, name: string, k: Kind)
    requires Name(b) && Name(f) && ValidName(name)
    ensures Compile(Join(["/", "/" + b, "/" + JoinSlash([f, VariableText(name, k)])]))
            == LitSegs([b, f]) + [Capture(name, k)]
  {
    var elems := ["/", "/" + b, "/" + JoinSlash([f, VariableText(name, k)])];
    BlueprintSegments(b, f, name, k);
    CompileJoin(elems, [b, f], name, k);
  }

  lemma BlueprintSegments(b: string, f: string, name: string, k: Kind)
    requires Name(b) && Name(f) && ValidName(name)
    ensures AllSegments(["/", "/" + b, "/" + JoinSlash([f, VariableText(name, k)])]) == [b, f] + [VariableText(name, k)]
  {
    var v := VariableText(name, k);
    var hp := "/" + JoinSlash([f, v]);
    SegmentsOfSlash();
    assert JoinSlash([b]) == b;
    SegmentsOfRooted([b]);
    HandlerPathSegments(f, name, k);
    AllSegmentsTriple("/", "/" + b, hp);
  }


  /**
   blueprint_test.go: an application rooted at `/` with a blueprint at `/b`
   holding one GET handler at `/f/<name:path>` answers a GET request exactly
   when its path is `/b/f/` followed by non-empty text without a newline (the
   `.` of `.+?`), slashes included, runs the handler with `name` bound to all
   of that text, and replies with the standard 404 otherwise, so a wrong prefix
   or a wrong handler part is refused.
   */
  lemma BlueprintCase(appName: string, bind: string, b: string, f: string, name: string, id: nat,
                      path: string, vars: map<string, string>)
    requires Name(b) && Name(f) && ValidName(name)
    ensures var bp := Blueprints.RegisterHandler(Blueprints.NewBlueprint("/" + b),
                        Handler(Terminal(id), [], "/" + JoinSlash([f, VariableText(name, Path)]), Get));
            var app := RegisterBlueprint(NewHTTPApplication(appName, "/", bind), bp);
            var req := Request("GET", path);
            var p := LitPrefix([b, f]);
            var ok := |p| <= |path| && path[..|p|] == p && Fits(Capture(name, Path), Rest(p, path));
            && Dispatch(app, req, vars) == (if ok then Invoked(0, map[name := Rest(p, path)]) else DefaultNotFound(vars))
            && Serve(app, req, vars) == (if ok then [Handled(id)] else [NotFound404])
  {
    var h := Handler(Terminal(id), [], "/" + JoinSlash([f, VariableText(name, Path)]), Get);
    var bp := Blueprints.RegisterHandler(Blueprints.NewBlueprint("/" + b), h);
    var app := RegisterBlueprint(NewHTTPApplication(appName, "/", bind), bp);
    BlueprintHandlerPattern(b, f, name, Path);
    var route := app.routes[0];
    assert route.segs == LitSegs([b, f]) + [Capture(name, Path)];
    assert route.handler == Terminal(id) && route.methods == Get;
    OneTerminalRoute(app, Request("GET", path), vars, [b, f], Capture(name, Path), id);
  }
}

=== FILE: context.dfy ===
/**
 The request context (context.go): the request's cookies and variables, the
 attached session, the session cache, and the cookies written to the response.
 Starting and ending a session are the only operations; both set a `SID`
 cookie on the request and on the response.
 */
module Contexts {
  import opened Optional
  import opened Sessions

  /**
   `RequestContext`: `cookies` are the request's cookies (what `AddCookie`
   extends), `setCookies` the `Set-Cookie` headers written so far.
   */
  datatype Context = Context(
    cookies: seq<Cookie>,
    vars: map<string, string>,
    session: Option<Session>,
    cache: Cache,
    setCookies: seq<Cookie>)

  /** The cache with the context's current session, if any, expired. */
  function ExpireCurrent(ctx: Context, now: int): (c: Cache)
    ensures ctx.session.None? ==> c == ctx.cache
    ensures ctx.session.Some? ==> Retrieve(c, ctx.session.value.id) == None
    ensures ctx.session.Some? ==> forall k :: k != ctx.session.value.id ==> Retrieve(c, k) == Retrieve(ctx.cache, k)
  {
    match ctx.session
    case None => ctx.cache
    case Some(current) => Expire(current, ctx.cache, now).1
  }

  /** The cookie `StartSession` issues for a session. */
  function SessionCookie(s: Session, domain: string): Cookie
  {
    Cookie("SID", IdString(s.id), "/", domain, s.expiration)
  }

  /** The cookie `EndSession` issues: empty value, expiring at the epoch. */
  function EndCookie(domain: string): Cookie
  {
    Cookie("SID", "", "/", domain, 0)
  }

  /**
   A cookie as it travels in a request's `Cookie` header, which is what
   `Request.AddCookie` writes and what a client sends back: the name and the
   value, with no path, domain or expiration.
   */
  function AsSent(c: Cookie): Cookie
  {
    Cookie(c.name, c.value, "", "", 0)
  }

  /**
   `StartSession`: any current session is expired, a new session for the user
   is created with the identifier the draws produce and stored, and its cookie
   is set on the response and, as name and value only, added to the request. `domain` is the host part
   of the request's `Host` header.
   */
  function StartSession(ctx: Context, user: string, draws: seq<int>, now: int, domain: string): (r: Context)
    requires FullDraws(draws)
    ensures r.session.Some? && r.session.value.id == NewSessionId(draws)
    ensures r.session.value.values == map["user" := user]
    ensures r.session.value.expiration == now + SessionDuration
    ensures Retrieve(r.cache, r.session.value.id) == r.session
    ensures ctx.session.Some? && ctx.session.value.id != r.session.value.id ==> Retrieve(r.cache, ctx.session.value.id) == None
    ensures forall k :: k != r.session.value.id && (ctx.session.None? || k != ctx.session.value.id) ==>
              Retrieve(r.cache, k) == Retrieve(ctx.cache, k)
    ensures r.cookies == ctx.cookies + [AsSent(SessionCookie(r.session.value, domain))]
    ensures r.setCookies == ctx.setCookies + [SessionCookie(r.session.value, domain)]
    ensures r.vars == ctx.vars
  {
    var s := NewUserSession(user, NewSessionId(draws), now, SessionDuration);
    var cookie := SessionCookie(s, domain);
    ctx.(session := Some(s),
         cache := Store(ExpireCurrent(ctx, now), s.id, s),
         cookies := ctx.cookies + [AsSent(cookie)],
         setCookies := ctx.setCookies + [cookie])
  }

  /**
   `EndSession`: without a session nothing happens; otherwise the session is
   expired, the emptied cookie is set on the response and, as name and
   empty value only, added to the request, and the context no longer has a session.
   */
  function EndSession(ctx: Context, now: int, domain: string): (r: Context)
    ensures ctx.session.None? ==> r == ctx
    ensures ctx.session.Some? ==>
              && r.session.None?
              && Retrieve(r.cache, ctx.session.value.id) == None
              && (forall k :: k != ctx.session.value.id ==> Retrieve(r.cache, k) == Retrieve(ctx.cache, k))
              && r.cookies == ctx.cookies + [AsSent(EndCookie(domain))]
              && r.setCookies == ctx.setCookies + [EndCookie(domain)]
              && r.vars == ctx.vars
  {
    match ctx.session
    case None => ctx
    case Some(_) =>
      var cookie := EndCookie(domain);
      ctx.(session := None,
           cache := ExpireCurrent(ctx, now),
           cookies := ctx.cookies + [AsSent(cookie)],
           setCookies := ctx.setCookies + [cookie])
  }

  /** Ending a session twice is ending it once. */
  lemma EndSessionIdempotent(ctx: Context, now: int, later: int, domain: string)
    ensures EndSession(EndSession(ctx, now, domain), later, domain) == EndSession(ctx, now, domain)
  {
  }

  /** Both operations keep every cached session filed under its own identifier. */
  lemma StartEndKeepKeyed(ctx: Context, user: string, draws: seq<int>, now: int, domain: string)
    requires WellKeyed(ctx.cache) && FullDraws(draws)
    ensures WellKeyed(StartSession(ctx, user, draws, now, domain).cache)
    ensures WellKeyed(EndSession(ctx, now, domain).cache)
  {
  }

  /**
   The cookie `StartSession` sets brings the session back: a later request
   carrying it, as a client sends it back (name and value), before the session expires, gets the started session attached
   with its values intact.
   */
  lemma StartedSessionResumes(ctx: Context, user: string, draws: seq<int>, now: int, domain: string, later: int, window: int)
    requires FullDraws(draws) && later <= now + SessionDuration
    ensures var r := StartSession(ctx, user, draws, now, domain);
            var o := SessionMiddleware([AsSent(SessionCookie(r.session.value, domain))], r.cache, later, SessionDuration, window);
            && o.session.Some?
            && o.session.value.id == r.session.value.id
            && o.session.value.values == map["user" := user]
  {
    var r := StartSession(ctx, user, draws, now, domain);
    var s := r.session.value;
    var cookies := [AsSent(SessionCookie(s, domain))];
    IdCookieLookup(cookies[0], s.id, r.cache);
    KnownOutcome(cookies, r.cache, later, SessionDuration, window, cookies[0], s);
  }

  /**
   Once the session is ended, the cookie `StartSession` had set no longer
   finds it: a later request carrying that cookie gets no session and is
   answered with the cleared cookie, which has no path or domain since the
   request's cookie had none.
   */
  lemma EndedSessionIsGone(ctx: Context, user: string, draws: seq<int>, now: int, domain: string, later: int, window: int)
    requires FullDraws(draws)
    ensures var r := StartSession(ctx, user, draws, now, domain);
            var e := EndSession(r, now, domain);
            var cookie := AsSent(SessionCookie(r.session.value, domain));
            SessionMiddleware([cookie], e.cache, later, SessionDuration, window)
              == Outcome(None, e.cache, [Cookie("SID", "", "", "", 0)], 1)
  {
    var r := StartSession(ctx, user, draws, now, domain);
    var e := EndSession(r, now, domain);
    var cookie := AsSent(SessionCookie(r.session.value, domain));
    IdCookieLookup(cookie, r.session.value.id, e.cache);
  }
}

=== FILE: handler.dfy ===
/**
 Handlers and middleware chains (handler.go). The Go code composes closures; the
 model keeps the composition as data, so the order in which middleware wraps a
 terminal handler can be stated and proved. A middleware body is opaque except
 for one choice that matters to the chain: whether it calls the handler it is
 given. `Run` records what running a composed handler does as a trace of events.
 */
module Handlers {
  import opened Methods

  /** A middleware, known by an id; `callsNext` says whether it calls the handler it wraps. */
  datatype Middleware = Middleware(id: nat, callsNext: bool)

  /**
   A request handler: the nil function a fresh `Handler` starts with, a terminal
   handler body, or a middleware wrapped around an inner handler.
   */
  datatype RequestHandler = Unset | Terminal(id: nat) | Wrapped(middleware: Middleware, inner: RequestHandler)

  /** `Handler`: the request function, handler-scope middleware, path template and method mask. */
  datatype Handler = Handler(fn: RequestHandler, middleware: seq<Middleware>, path: string, methods: Mask)

  /** `NewHandler`: the given path and methods, no middleware, and no request function yet. */
  function NewHandler(path: string, methods: Mask): (h: Handler)
    ensures h.path == path && h.methods == methods
    ensures h.middleware == [] && h.fn == Unset
  {
    Handler(Unset, [], path, methods)
  }

  /** `AddMiddleware`: the middleware goes last; everything else stays. */
  function AddMiddleware(h: Handler, m: Middleware): (h': Handler)
    ensures h'.middleware == h.middleware + [m]
    ensures h'.fn == h.fn && h'.path == h.path && h'.methods == h.methods
  {
    h.(middleware := h.middleware + [m])
  }

  /** `withMiddleware`: a handler that hands `inner` to the middleware. */
  function WithMiddleware(inner: RequestHandler, m: Middleware): RequestHandler
  {
    Wrapped(m, inner)
  }

  /** The chain as it is meant to read: the first middleware outermost, the terminal handler innermost. */
  function Chain(ms: seq<Middleware>, h: RequestHandler): RequestHandler
  {
    if |ms| == 0 then h else Wrapped(ms[0], Chain(ms[1..], h))
  }

  /**
   `withMiddlewareChain`: the Go loop, which wraps from the last middleware
   inward to the first, builds exactly the outer-to-inner chain.
   */
  method WithMiddlewareChain(h: RequestHandler, ms: seq<Middleware>) returns (r: RequestHandler)
    ensures r == Chain(ms, h)
  {
    r := h;
    var i := |ms|;
    while i > 0
      invariant 0 <= i <= |ms|
      invariant r == Chain(ms[i..], h)
    {
      i := i - 1;
      assert ms[i..][1..] == ms[i + 1..];
      r := WithMiddleware(r, ms[i]);
    }
  }

  /** An empty chain is the handler itself. */
  lemma ChainEmpty(h: RequestHandler)
    ensures Chain([], h) == h
  {
  }

  /** Chains compose: `chain(a ++ b, h) == chain(a, chain(b, h))`. */
  lemma {:induction false} ChainAppend(a: seq<Middleware>, b: seq<Middleware>, h: RequestHandler)
    ensures Chain(a + b, h) == Chain(a, Chain(b, h))
    decreases |a|
  {
    if |a| == 0 {
      assert a + b == b;
    } else {
      assert (a + b)[1..] == a[1..] + b;
      ChainAppend(a[1..], b, h);
    }
  }

  /**
   What running a handler can be observed to do: a middleware's work before and
   after its inner call, a terminal handler's work, a call of the nil function,
   and the standard 404 reply written when no route matches.
   */
  datatype Event = Before(mw: nat) | After(mw: nat) | Handled(id: nat) | NilCall | NotFound404

  /** Calling the nil request function panics; the panic unwinds through every middleware that called inward. */
  predicate Panics(h: RequestHandler)
  {
    match h
    case Unset => true
    case Terminal(_) => false
    case Wrapped(m, inner) => m.callsNext && Panics(inner)
  }

  /**
   The trace of running a handler: a middleware logs before, calls the inner
   handler if it chooses to, and logs after unless the inner call panicked.
   */
  function Run(h: RequestHandler): seq<Event>
  {
    match h
    case Unset => [NilCall]
    case Terminal(id) => [Handled(id)]
    case Wrapped(m, inner) =>
      [Before(m.id)]
      + (if m.callsNext then Run(inner) else [])
      + (if m.callsNext && Panics(inner) then [] else [After(m.id)])
  }

  predicate AllCallNext(ms: seq<Middleware>) {
    forall i :: 0 <= i < |ms| ==> ms[i].callsNext
  }

  function Befores(ms: seq<Middleware>): (r: seq<Event>)
    ensures |r| == |ms| && forall i :: 0 <= i < |ms| ==> r[i] == Before(ms[i].id)
  {
    seq(|ms|, i requires 0 <= i < |ms| => Before(ms[i].id))
  }

  /** The after-events in reverse list order: the innermost middleware finishes first. */
  function AftersReversed(ms: seq<Middleware>): (r: seq<Event>)
    ensures |r| == |ms| && forall i :: 0 <= i < |ms| ==> r[i] == After(ms[|ms| - 1 - i].id)
  {
    seq(|ms|, i requires 0 <= i < |ms| => After(ms[|ms| - 1 - i].id))
  }

  /**
   With middleware that all call inward around a terminal handler, every
   before-event comes in list order, then the handler, then every after-event in
   reverse list order.
   */
  lemma {:induction false} RunPassThrough(ms: seq<Middleware>, id: nat)
    requires AllCallNext(ms)
    ensures Run(Chain(ms, Terminal(id))) == Befores(ms) + [Handled(id)] + AftersReversed(ms)
    decreases |ms|
  {
    if |ms| > 0 {
      var inner := Chain(ms[1..], Terminal(id));
      RunPassThrough(ms[1..], id);
      NoPanicThroughChain(ms[1..], id);
      assert Run(Chain(ms, Terminal(id))) == [Before(ms[0].id)] + Run(inner) + [After(ms[0].id)];
      BeforesCons(ms);
      AftersCons(ms);
      ConcatRegroup([Before(ms[0].id)], Befores(ms[1..]), [Handled(id)], AftersReversed(ms[1..]), [After(ms[0].id)]);
    }
  }

  lemma BeforesCons(ms: seq<Middleware>)
    requires |ms| > 0
    ensures Befores(ms) == [Before(ms[0].id)] + Befores(ms[1..])
  {
  }

  lemma AftersCons(ms: seq<Middleware>)
    requires |ms| > 0
    ensures AftersReversed(ms) == AftersReversed(ms[1..]) + [After(ms[0].id)]
  {
  }

  lemma ConcatRegroup<T>(a: seq<T>, b: seq<T>, c: seq<T>, d: seq<T>, e: seq<T>)
    ensures a + (b + c + d) + e == (a + b) + c + (d + e)
  {
  }

  lemma {:induction false} NoPanicThroughChain(ms: seq<Middleware>, id: nat)
    ensures !Panics(Chain(ms, Terminal(id)))
    decreases |ms|
  {
    if |ms| > 0 {
      NoPanicThroughChain(ms[1..], id);
    }
  }

  /**
   A middleware that does not call inward short-circuits the chain: only the
   middleware up to and including it run, and the handler never does.
   */
  lemma {:induction false} RunShortCircuit(ms: seq<Middleware>, k: nat, h: RequestHandler)
    requires k < |ms| && !ms[k].callsNext && AllCallNext(ms[..k])
    ensures Run(Chain(ms, h)) == Befores(ms[..k + 1]) + AftersReversed(ms[..k + 1])
    decreases k
  {
    var head := ms[..k + 1];
    assert head[0] == ms[0];
    if k == 0 {
      assert Run(Chain(ms, h)) == [Before(ms[0].id)] + [After(ms[0].id)];
      assert Befores(head) == [Before(ms[0].id)];
      assert AftersReversed(head) == [After(ms[0].id)];
    } else {
      var tail := ms[1..];
      assert tail[..k - 1] == ms[1..k];
      assert AllCallNext(tail[..k - 1]);
      RunShortCircuit(tail, k - 1, h);
      ShortCircuitNoPanic(tail, k - 1, h);
      assert ms[0].callsNext;
      assert Run(Chain(ms, h)) == [Before(ms[0].id)] + Run(Chain(tail, h)) + [After(ms[0].id)];
      assert head[1..] == tail[..k];
      BeforesCons(head);
      AftersCons(head);
      ConcatRegroup4([Before(ms[0].id)], Befores(tail[..k]), AftersReversed(tail[..k]), [After(ms[0].id)]);
    }
  }

  lemma ConcatRegroup4<T>(a: seq<T>, b: seq<T>, c: seq<T>, d: seq<T>)
    ensures a + (b + c) + d == (a + b) + (c + d)
  {
  }

  lemma {:induction false} ShortCircuitNoPanic(ms: seq<Middleware>, k: nat, h: RequestHandler)
    requires k < |ms| && !ms[k].callsNext
    ensures !Panics(Chain(ms, h))
    decreases k
  {
    if k > 0 {
      ShortCircuitNoPanic(ms[1..], k - 1, h);
    }
  }
}

=== FILE: matcher.dfy ===
/**
 What the anchored pattern of a compiled template matches, stated over segments
 instead of a regular-expression engine. A literal matches its own text, `int` a
 non-empty run of decimal digits (`[\d]+`), `string` a non-empty run without a
 slash (`[^/]+`) and `path` a non-empty run without a newline (`.+?`); the
 segments are separated by single slashes and the match is anchored at both ends.

 `MatchTexts` is a backtracking matcher that tries the lengths of the first
 segment in the order the regex engine prefers them: the one length of a
 literal, the greedy kinds longest first and the lazy `path` shortest first.
 Its result is therefore the submatch the leftmost-first engine reports.
 */
module Matcher {
  import opened Optional
  import opened Strings
  import opened PathPattern

  predicate IsDigit(c: char) {
    '0' <= c <= '9'
  }

  /** The text a segment may match on its own. */
  predicate Fits(seg: Seg, text: string) {
    match seg
    case Lit(t) => text == t
    case Capture(_, Int) => |text| >= 1 && forall i :: 0 <= i < |text| ==> IsDigit(text[i])
    case Capture(_, Str) => |text| >= 1 && forall i :: 0 <= i < |text| ==> text[i] != '/'
    case Capture(_, Path) => |text| >= 1 && forall i :: 0 <= i < |text| ==> text[i] != '\n'
  }

  /** One text per segment, each fitting its segment. */
  predicate Accepts(segs: seq<Seg>, texts: seq<string>) {
    |texts| == |segs| && forall i :: 0 <= i < |segs| ==> Fits(segs[i], texts[i])
  }

  /** `1, 2, ..., n`: the lazy order. */
  function Ascending(n: nat): (r: seq<nat>)
    ensures |r| == n && forall i :: 0 <= i < n ==> r[i] == i + 1
  {
    seq(n, i requires 0 <= i < n => i + 1)
  }

  /** `n, n - 1, ..., 1`: the greedy order. */
  function Descending(n: nat): (r: seq<nat>)
    ensures |r| == n && forall i :: 0 <= i < n ==> r[i] == n - i
  {
    seq(n, i requires 0 <= i < n => n - i)
  }

  /** The lengths the first segment may take on an input of length `n`, most preferred first. */
  function Candidates(seg: Seg, n: nat): seq<nat>
  {
    match seg
    case Lit(t) => [|t|]
    case Capture(_, Path) => Ascending(n)
    case Capture(_, _) => Descending(n)
  }

  /**
   The match of `segs` against all of `s` (the request path after its leading
   slash): one text per segment, or None.
   */
  function MatchTexts(segs: seq<Seg>, s: string): (r: Option<seq<string>>)
    requires |segs| >= 1
    ensures r.Some? ==> Accepts(segs, r.value) && JoinSlash(r.value) == s
    decreases |s|, 2, 0
  {
    TryLengths(segs, s, Candidates(segs[0], |s|))
  }

  /** The first length of `lens` with which the whole match succeeds. */
  function TryLengths(segs: seq<Seg>, s: string, lens: seq<nat>): (r: Option<seq<string>>)
    requires |segs| >= 1
    ensures r.Some? ==> Accepts(segs, r.value) && JoinSlash(r.value) == s
    decreases |s|, 1, |lens|
  {
    if |lens| == 0 then None
    else
      var r := Step(segs, s, lens[0]);
      if r.Some? then r else TryLengths(segs, s, lens[1..])
  }

  /** The match when the first segment takes exactly the first `len` characters. */
  function Step(segs: seq<Seg>, s: string, len: nat): (r: Option<seq<string>>)
    requires |segs| >= 1
    ensures r.Some? ==> Accepts(segs, r.value) && JoinSlash(r.value) == s
    ensures r.Some? ==> len <= |s| && r.value[0] == s[..len]
    decreases |s|, 0, 0
  {
    if len > |s| || !Fits(segs[0], s[..len]) then None
    else if |segs| == 1 then
      if len == |s| then Some([s]) else None
    else if len < |s| && s[len] == '/' then
      match MatchTexts(segs[1..], s[len + 1..])
      case None => None
      case Some(rest) =>
        JoinSlashCons(s[..len], rest);
        assert s == s[..len] + "/" + s[len + 1..];
        Some([s[..len]] + rest)
    else None
  }

  /** `^/` followed by the segments and `$`: the whole request path, which starts with a slash. */
  function MatchPath(segs: seq<Seg>, path: string): (r: Option<seq<string>>)
    requires |segs| >= 1
    ensures r.Some? ==> |path| >= 1 && path[0] == '/' && Accepts(segs, r.value)
                          && path == "/" + JoinSlash(r.value)
  {
    if |path| >= 1 && path[0] == '/' then MatchTexts(segs, path[1..]) else None
  }

  /** The texts matched by the capture segments, in order: the regex submatches. */
  function Captures(segs: seq<Seg>, texts: seq<string>): (caps: seq<string>)
    requires |texts| == |segs|
    ensures |caps| == |CaptureNames(segs)|
  {
    if |segs| == 0 then []
    else (if segs[0].Capture? then [texts[0]] else []) + Captures(segs[1..], texts[1..])
  }

  /** The capture names in order: the regex's subexpression names. */
  function CaptureNames(segs: seq<Seg>): seq<string>
  {
    if |segs| == 0 then []
    else (if segs[0].Capture? then [segs[0].name] else []) + CaptureNames(segs[1..])
  }

  /** When `texts` fit the segments and join to `s`, the first segment can take `|texts[0]|` characters. */
  lemma {:induction false} StepSucceeds(segs: seq<Seg>, texts: seq<string>, s: string)
    requires |segs| >= 1 && Accepts(segs, texts) && JoinSlash(texts) == s
    ensures Step(segs, s, |texts[0]|).Some?
    decreases |s|, 0
  {
    var len := |texts[0]|;
    if |segs| == 1 {
      assert s == texts[0];
      assert s[..len] == texts[0];
    } else {
      var tail := JoinSlash(texts[1..]);
      assert s == texts[0] + "/" + tail;
      assert s[..len] == texts[0];
      assert s[len] == '/';
      assert s[len + 1..] == tail;
      assert Accepts(segs[1..], texts[1..]);
      MatchComplete(segs[1..], texts[1..], tail);
    }
  }

  /**
   The matcher is complete: whenever the input splits into texts fitting the
   segments, the match succeeds.
   */
  lemma {:induction false} MatchComplete(segs: seq<Seg>, texts: seq<string>, s: string)
    requires |segs| >= 1 && Accepts(segs, texts) && JoinSlash(texts) == s
    ensures MatchTexts(segs, s).Some?
    decreases |s|, 1
  {
    StepSucceeds(segs, texts, s);
    var len := |texts[0]|;
    assert len <= |s|;
    var lens := Candidates(segs[0], |s|);
    var j: nat := match segs[0]
      case Lit(_) => 0
      case Capture(_, Path) => len - 1
      case Capture(_, _) => |s| - len;
    assert j < |lens| && lens[j] == len;
    TryLengthsReaches(segs, s, lens, j);
  }

  /**
   If the length at position `j` works, trying `lens` in order succeeds with a
   length at or before position `j`.
   */
  lemma {:induction false} TryLengthsReaches(segs: seq<Seg>, s: string, lens: seq<nat>, j: nat)
    requires |segs| >= 1 && j < |lens| && Step(segs, s, lens[j]).Some?
    ensures TryLengths(segs, s, lens).Some?
    ensures |TryLengths(segs, s, lens).value[0]| in lens[..j + 1]
    decreases j
  {
    if Step(segs, s, lens[0]).Some? {
      assert lens[..j + 1][0] == lens[0];
    } else {
      assert j > 0;
      TryLengthsReaches(segs, s, lens[1..], j - 1);
      assert lens[1..][..j] == lens[..j + 1][1..];
    }
  }

  /**
   A `path` capture is lazy: the first segment takes the shortest text with which
   the rest of the path still matches.
   */
  lemma PathCaptureIsShortest(segs: seq<Seg>, s: string, other: seq<string>)
    requires |segs| >= 1 && segs[0].Capture? && segs[0].kind == Path
    requires Accepts(segs, other) && JoinSlash(other) == s
    ensures MatchTexts(segs, s).Some?
    ensures |MatchTexts(segs, s).value[0]| <= |other[0]|
  {
    StepSucceeds(segs, other, s);
    var len := |other[0]|;
    var lens := Ascending(|s|);
    TryLengthsReaches(segs, s, lens, len - 1);
    var tried := lens[..len];
    assert forall k :: 0 <= k < |tried| ==> tried[k] <= len;
  }

  /**
   The `int` and `string` captures are greedy: the first segment takes the
   longest text with which the rest of the path still matches.
   */
  lemma GreedyCaptureIsLongest(segs: seq<Seg>, s: string, other: seq<string>)
    requires |segs| >= 1 && segs[0].Capture? && segs[0].kind != Path
    requires Accepts(segs, other) && JoinSlash(other) == s
    ensures MatchTexts(segs, s).Some?
    ensures |MatchTexts(segs, s).value[0]| >= |other[0]|
  {
    StepSucceeds(segs, other, s);
    var len := |other[0]|;
    var lens := Descending(|s|);
    TryLengthsReaches(segs, s, lens, |s| - len);
    var tried := lens[..|s| - len + 1];
    assert forall k :: 0 <= k < |tried| ==> tried[k] >= len;
  }

  /** The match of a whole request path succeeds iff the path is `/` followed by fitting texts. */
  lemma MatchPathIff(segs: seq<Seg>, path: string, texts: seq<string>)
    requires |segs| >= 1 && Accepts(segs, texts) && path == "/" + JoinSlash(texts)
    ensures MatchPath(segs, path).Some?
  {
    assert path[1..] == JoinSlash(texts);
    MatchComplete(segs, texts, path[1..]);
  }
}

=== FILE: paths.dfy ===
/**
 Go's `path.Join`, used to place a handler under the application root and a
 blueprint prefix. `Join` glues the non-empty elements with slashes and cleans
 the result: repeated slashes collapse, `.` segments vanish and a trailing slash
 is dropped. Resolution of `..` against the previous segment is not modelled; a
 `..` segment is kept like any other name.
 */
module Paths {
  import opened Strings

  /** A segment `Clean` keeps: neither empty nor `.`. */
  predicate Kept(part: string) {
    part != "" && part != "."
  }

  /** The parts worth keeping, in order. */
  function KeepParts(parts: seq<string>): (r: seq<string>)
    ensures |r| <= |parts|
    ensures forall i :: 0 <= i < |r| ==> Kept(r[i])
    ensures (forall i :: 0 <= i < |parts| ==> NoSlash(parts[i])) ==>
              forall i :: 0 <= i < |r| ==> NoSlash(r[i])
  {
    if |parts| == 0 then []
    else
      var tail := KeepParts(parts[1..]);
      if Kept(parts[0]) then [parts[0]] + tail else tail
  }

  /** The names a path passes through, ignoring empty and `.` segments. */
  function Segments(p: string): (r: seq<string>)
    ensures forall i :: 0 <= i < |r| ==> Kept(r[i]) && NoSlash(r[i])
  {
    KeepParts(Split(p))
  }

  /** The segments of each element, concatenated in order. */
  function AllSegments(elems: seq<string>): seq<string>
  {
    if |elems| == 0 then [] else Segments(elems[0]) + AllSegments(elems[1..])
  }

  /** `path.Clean` without `..` resolution. */
  function Clean(p: string): string
  {
    if p == "" then "."
    else
      var body := JoinSlash(Segments(p));
      if p[0] == '/' then "/" + body
      else if body == "" then "."
      else body
  }

  /**
   The buffer loop of `path.Join`: an element is appended, after a slash when the
   buffer is not empty, unless both the buffer and the element are empty.
   */
  function JoinBuffer(buf: string, elems: seq<string>): string
    decreases |elems|
  {
    if |elems| == 0 then buf
    else
      var e := elems[0];
      var next := if |buf| > 0 then buf + "/" + e else e;
      JoinBuffer(next, elems[1..])
  }

  predicate AllEmpty(elems: seq<string>) {
    forall i :: 0 <= i < |elems| ==> elems[i] == ""
  }

  /** `path.Join(elems...)`: the empty string when every element is empty, else the cleaned join. */
  function Join(elems: seq<string>): string
  {
    if AllEmpty(elems) then "" else Clean(JoinBuffer("", elems))
  }

  lemma {:induction false} KeepPartsAppend(a: seq<string>, b: seq<string>)
    ensures KeepParts(a + b) == KeepParts(a) + KeepParts(b)
    decreases |a|
  {
    if |a| == 0 {
      assert a + b == b;
    } else {
      assert (a + b)[1..] == a[1..] + b;
      KeepPartsAppend(a[1..], b);
    }
  }

  lemma {:induction false} JoinSlashAppend(a: seq<string>, b: seq<string>)
    requires |a| >= 1 && |b| >= 1
    ensures JoinSlash(a + b) == JoinSlash(a) + "/" + JoinSlash(b)
    decreases |a|
  {
    if |a| == 1 {
      JoinSlashCons(a[0], b);
      assert a + b == [a[0]] + b;
    } else {
      assert (a + b)[1..] == a[1..] + b;
      JoinSlashAppend(a[1..], b);
      JoinSlashCons(a[0], a[1..] + b);
      JoinSlashCons(a[0], a[1..]);
      assert a + b == [a[0]] + (a[1..] + b);
    }
  }

  /** Splitting at a slash splits the parts: `Split(a + "/" + b) == Split(a) + Split(b)`. */
  lemma SplitAtSlash(a: string, b: string)
    ensures Split(a + "/" + b) == Split(a) + Split(b)
  {
    var pa, pb := Split(a), Split(b);
    JoinSlashAppend(pa, pb);
    SplitJoinSlash(pa + pb);
  }

  lemma SegmentsAtSlash(a: string, b: string)
    ensures Segments(a + "/" + b) == Segments(a) + Segments(b)
  {
    SplitAtSlash(a, b);
    KeepPartsAppend(Split(a), Split(b));
  }

  lemma SegmentsOfEmpty()
    ensures Segments("") == []
  {
    assert Split("") == [""];
  }

  /** The buffer loop keeps every segment of every element, in order. */
  lemma {:induction false} JoinBufferSegments(buf: string, elems: seq<string>)
    ensures Segments(JoinBuffer(buf, elems)) == Segments(buf) + AllSegments(elems)
    decreases |elems|
  {
    if |elems| > 0 {
      var e := elems[0];
      var next := if |buf| > 0 then buf + "/" + e else e;
      JoinBufferSegments(next, elems[1..]);
      if |buf| > 0 {
        SegmentsAtSlash(buf, e);
      } else {
        assert buf == "";
        SegmentsOfEmpty();
      }
    }
  }

  lemma {:induction false} AllSegmentsOfEmpty(elems: seq<string>)
    requires AllEmpty(elems)
    ensures AllSegments(elems) == []
    decreases |elems|
  {
    if |elems| > 0 {
      SegmentsOfEmpty();
      AllSegmentsOfEmpty(elems[1..]);
    }
  }

  lemma JoinSlashKeptNonEmpty(segs: seq<string>)
    requires |segs| >= 1
    requires forall i :: 0 <= i < |segs| ==> Kept(segs[i]) && NoSlash(segs[i])
    ensures |JoinSlash(segs)| >= 1 && JoinSlash(segs)[0] != '/'
    ensures JoinSlash(segs)[|JoinSlash(segs)| - 1] != '/'
  {
    JoinSlashFirstLast(segs);
  }

  lemma {:induction false} JoinSlashFirstLast(segs: seq<string>)
    requires |segs| >= 1
    requires forall i :: 0 <= i < |segs| ==> |segs[i]| >= 1
    ensures |JoinSlash(segs)| >= 1
    ensures JoinSlash(segs)[0] == segs[0][0]
    ensures JoinSlash(segs)[|JoinSlash(segs)| - 1] == segs[|segs| - 1][|segs[|segs| - 1]| - 1]
    decreases |segs|
  {
    if |segs| > 1 {
      JoinSlashFirstLast(segs[1..]);
    }
  }

  /**
   The segments of a join are the segments of its elements, in order: empty
   elements, doubled slashes and `.` contribute nothing.
   */
  lemma JoinSegments(elems: seq<string>)
    ensures Segments(Join(elems)) == AllSegments(elems)
  {
    SegmentsOfEmpty();
    if AllEmpty(elems) {
      AllSegmentsOfEmpty(elems);
    } else {
      var p := JoinBuffer("", elems);
      JoinBufferSegments("", elems);
      CleanSegments(p);
    }
  }

  /** Cleaning keeps the segments of a path. */
  lemma CleanSegments(p: string)
    ensures Segments(Clean(p)) == Segments(p)
  {
    var segs := Segments(p);
    if p == "" {
      SegmentsOfEmpty();
      SegmentsOfDot();
    } else if |segs| == 0 {
      if p[0] == '/' {
        SegmentsOfSlash();
      } else {
        SegmentsOfDot();
      }
    } else if p[0] == '/' {
      SegmentsOfRooted(segs);
    } else {
      SegmentsOfJoin(segs);
    }
  }

  lemma SegmentsOfDot()
    ensures Segments(".") == []
  {
    assert Split(".") == ["."];
  }

  /** The root path `/` has no segments. */
  lemma SegmentsOfSlash()
    ensures Segments("/") == []
  {
    SegmentsAfterSlash("");
    assert "/" + "" == "/";
    SegmentsOfEmpty();
  }

  /** Kept slash-free parts joined by slashes have exactly those parts as segments. */
  lemma SegmentsOfJoin(parts: seq<string>)
    requires |parts| >= 1 && forall i :: 0 <= i < |parts| ==> Kept(parts[i]) && NoSlash(parts[i])
    ensures Segments(JoinSlash(parts)) == parts
  {
    SplitJoinSlash(parts);
    assert Split(JoinSlash(parts)) == parts;
    KeepKept(parts);
  }

  /** A rooted path of kept parts has exactly those parts as segments. */
  lemma SegmentsOfRooted(parts: seq<string>)
    requires |parts| >= 1 && forall i :: 0 <= i < |parts| ==> Kept(parts[i]) && NoSlash(parts[i])
    ensures Segments("/" + JoinSlash(parts)) == parts
  {
    SegmentsAfterSlash(JoinSlash(parts));
    SegmentsOfJoin(parts);
  }

  /** A leading slash adds no segment. */
  lemma SegmentsAfterSlash(b: string)
    ensures Segments("/" + b) == Segments(b)
  {
    SegmentsAtSlash("", b);
    assert "" + "/" + b == "/" + b;
    SegmentsOfEmpty();
    assert Segments("/" + b) == [] + Segments(b);
  }

  lemma {:induction false} KeepKept(parts: seq<string>)
    requires forall i :: 0 <= i < |parts| ==> Kept(parts[i])
    ensures KeepParts(parts) == parts
    decreases |parts|
  {
    if |parts| > 0 {
      KeepKept(parts[1..]);
    }
  }

  /**
   A joined path never ends in a slash unless it is exactly "/": a trailing slash
   on the last element is dropped.
   */
  lemma JoinDropsTrailingSlash(elems: seq<string>)
    ensures var r := Join(elems); r == "/" || |r| == 0 || r[|r| - 1] != '/'
  {
    if !AllEmpty(elems) {
      var p := JoinBuffer("", elems);
      if p != "" {
        var segs := Segments(p);
        if |segs| > 0 {
          JoinSlashKeptNonEmpty(segs);
        }
      }
    }
  }

  /**
   Once the elements contribute at least one segment, the joined path with its
   leading slashes stripped splits into exactly those segments: the compiled
   route sees no empty segment and no trailing slash.
   */
  lemma JoinSplitsIntoSegments(elems: seq<string>)
    requires AllSegments(elems) != []
    ensures Split(TrimLeftSlash(Join(elems))) == AllSegments(elems)
  {
    JoinSegments(elems);
    var segs := AllSegments(elems);
    if AllEmpty(elems) {
      AllSegmentsOfEmpty(elems);
    }
    var p := JoinBuffer("", elems);
    JoinBufferSegments("", elems);
    SegmentsOfEmpty();
    if p == "" {
      SegmentsOfEmpty();
    }
    assert Segments(p) == segs;
    var body := JoinSlash(segs);
    JoinSlashKeptNonEmpty(segs);
    SplitJoinSlash(segs);
    if p[0] == '/' {
      assert Join(elems) == "/" + body;
      assert TrimLeftSlash("/" + body) == TrimLeftSlash(body);
    } else {
      assert Join(elems) == body;
    }
  }
}

=== FILE: pattern.dfy ===
/**
 The route-template compiler of route.go. A template such as `/test/<id:int>` is
 stripped of its leading slashes and split at `/`; a part of the exact form
 `<name:kind>` becomes a typed capture and every other part stays a literal.
 `PathPatternOf` renders the segments as the anchored regular expression the Go
 code hands to its regex engine; `Matcher` gives the same segments a direct
 matching semantics.
 */
module PathPattern {
  import opened Optional
  import opened Strings

  /** The three variable kinds of a template. */
  datatype Kind = Int | Str | Path

  /** One `/`-separated part of a compiled template. */
  datatype Seg = Lit(text: string) | Capture(name: string, kind: Kind)

  /** The keyword that selects a kind inside `<name:kind>`. */
  function KindName(k: Kind): string
  {
    match k
    case Int => "int"
    case Path => "path"
    case Str => "string"
  }

  /** The kind a keyword selects, if it is one of `int`, `path`, `string`. */
  function KindOf(word: string): (r: Option<Kind>)
  {
    if word == "int" then Some(Int)
    else if word == "path" then Some(Path)
    else if word == "string" then Some(Str)
    else None
  }

  /** The regular expression each kind stands for. */
  function KindPattern(k: Kind): string
  {
    match k
    case Int => "[\\d]+"
    case Path => ".+?"
    case Str => "[^/]+"
  }

  predicate IsLetter(c: char) {
    ('a' <= c <= 'z') || ('A' <= c <= 'Z')
  }

  /** A character of the class `\w`: ASCII letter, digit or underscore. */
  predicate IsWordChar(c: char) {
    IsLetter(c) || ('0' <= c <= '9') || c == '_'
  }

  /** A capture name as `[a-zA-Z]\w+` admits it: a letter and at least one more word character. */
  predicate ValidName(name: string) {
    |name| >= 2 && IsLetter(name[0]) && forall i :: 1 <= i < |name| ==> IsWordChar(name[i])
  }

  /** The text of the variable segment `<name:kind>`. */
  function VariableText(name: string, k: Kind): string
  {
    "<" + name + ":" + KindName(k) + ">"
  }

  /** Position of the first colon of `s`, or `|s|` when there is none. */
  function FirstColon(s: string): (c: nat)
    ensures c <= |s|
    ensures forall i :: 0 <= i < c ==> s[i] != ':'
    ensures c < |s| ==> s[c] == ':'
  {
    if |s| == 0 then 0
    else if s[0] == ':' then 0
    else 1 + FirstColon(s[1..])
  }

  /**
   The match of `variableRE` (`^\<([a-zA-Z]\w+):(int|path|string)\>$`) against one
   part: the name and kind when the whole part has the variable form.
   */
  function ParseVariable(part: string): Option<(string, Kind)>
  {
    if |part| >= 2 && part[0] == '<' && part[|part| - 1] == '>' then
      var inner := part[1..|part| - 1];
      var c := FirstColon(inner);
      if c < |inner| && ValidName(inner[..c]) then
        match KindOf(inner[c + 1..])
        case Some(k) => Some((inner[..c], k))
        case None => None
      else None
    else None
  }

  /** The segment a template part compiles to. */
  function SegmentOf(part: string): Seg
  {
    match ParseVariable(part)
    case Some((name, k)) => Capture(name, k)
    case None => Lit(part)
  }

  /** The parts of a template: leading slashes stripped, then split at every slash. */
  function TemplateParts(template: string): seq<string>
  {
    Split(TrimLeftSlash(template))
  }

  /** The segments of a list of parts, one per part. */
  function CompileParts(parts: seq<string>): (segs: seq<Seg>)
    ensures |segs| == |parts|
    ensures forall i :: 0 <= i < |segs| ==> segs[i] == SegmentOf(parts[i])
  {
    seq(|parts|, i requires 0 <= i < |parts| => SegmentOf(parts[i]))
  }

  /** The segments a template compiles to, one per part. */
  function Compile(template: string): (segs: seq<Seg>)
    ensures |segs| == |TemplateParts(template)|
    ensures forall i :: 0 <= i < |segs| ==> segs[i] == SegmentOf(TemplateParts(template)[i])
  {
    CompileParts(TemplateParts(template))
  }

  /** The regular expression text of one segment: a literal verbatim, a capture as a named group. */
  function SegPattern(s: Seg): string
  {
    match s
    case Lit(t) => t
    case Capture(name, k) => "(?P<" + name + ">" + KindPattern(k) + ")"
  }

  function SegPatterns(segs: seq<Seg>): seq<string>
  {
    seq(|segs|, i requires 0 <= i < |segs| => SegPattern(segs[i]))
  }

  /** Pattern parts joined by `/` and anchored: `^/` in front, `$` at the end. */
  function Anchored(parts: seq<string>): string
  {
    "^/" + JoinSlash(parts) + "$"
  }

  /** `getPathPattern`: the anchored expression `^/` + the segment patterns joined by `/` + `$`. */
  function PathPatternOf(template: string): string
  {
    Anchored(SegPatterns(Compile(template)))
  }

  /**
   `getPathPattern` as the Go code computes it: a loop filling one pattern part
   per template part, then the anchored join.
   */
  method GetPathPattern(path: string) returns (pattern: string)
    ensures pattern == PathPatternOf(path)
  {
    var parts := Split(TrimLeftSlash(path));
    var reParts := PartPatterns(parts);
    pattern := Anchored(reParts);
  }

  /** The loop of `getPathPattern`: one pattern part per template part, in order. */
  method PartPatterns(parts: seq<string>) returns (reParts: seq<string>)
    ensures reParts == SegPatterns(CompileParts(parts))
  {
    reParts := [];
    var i := 0;
    while i < |parts|
      invariant 0 <= i <= |parts| && |reParts| == i
      invariant forall j :: 0 <= j < i ==> reParts[j] == SegPattern(SegmentOf(parts[j]))
    {
      var piece := PartPattern(parts[i]);
      reParts := reParts + [piece];
      i := i + 1;
    }
  }

  /** The body of the loop of `getPathPattern`: a variable part becomes a named group of its kind's pattern. */
  method PartPattern(part: string) returns (piece: string)
    ensures piece == SegPattern(SegmentOf(part))
  {
    match ParseVariable(part) {
      case Some((name, k)) =>
        var groupType: string;
        match k {
          case Int => groupType := "[\\d]+";
          case Path => groupType := ".+?";
          case Str => groupType := "[^/]+";
        }
        piece := "(?P<" + name + ">" + groupType + ")";
      case None =>
        piece := part;
    }
  }

  /** The variable form is recognised exactly: a part parses iff it is `<name:kind>` with a valid name. */
  lemma ParseVariableExact(part: string, name: string, k: Kind)
    ensures ParseVariable(part) == Some((name, k)) <==> (ValidName(name) && part == VariableText(name, k))
  {
    if ValidName(name) && part == VariableText(name, k) {
      ParseVariableText(name, k);
    }
    if ParseVariable(part) == Some((name, k)) {
      ParseVariableSound(part);
    }
  }

  lemma ParseVariableText(name: string, k: Kind)
    requires ValidName(name)
    ensures ParseVariable(VariableText(name, k)) == Some((name, k))
  {
    VariableTextInner(name, k);
    NameHasNoColon(name);
    ColonAfterName(name, KindName(k));
    SplitAtColon(name, KindName(k));
    KindOfName(k);
  }

  lemma VariableTextInner(name: string, k: Kind)
    ensures var part := VariableText(name, k);
            |part| >= 2 && part[0] == '<' && part[|part| - 1] == '>' &&
            part[1..|part| - 1] == name + ":" + KindName(k)
  {
  }

  lemma NameHasNoColon(name: string)
    requires ValidName(name)
    ensures forall i :: 0 <= i < |name| ==> name[i] != ':'
  {
    assert forall i :: 0 <= i < |name| ==> IsLetter(name[i]) || IsWordChar(name[i]);
  }

  lemma SplitAtColon(name: string, rest: string)
    ensures (name + ":" + rest)[..|name|] == name
    ensures (name + ":" + rest)[|name| + 1..] == rest
  {
  }

  lemma KindOfName(k: Kind)
    ensures KindOf(KindName(k)) == Some(k)
  {
  }

  /** A word selects a kind exactly when it is that kind's keyword; any other word selects none. */
  lemma KindOfIff(word: string, k: Kind)
    ensures KindOf(word) == Some(k) <==> KindName(k) == word
    ensures KindOf(word).None? <==> word !in {"int", "path", "string"}
  {
  }

  lemma ColonAfterName(name: string, rest: string)
    requires forall i :: 0 <= i < |name| ==> name[i] != ':'
    ensures FirstColon(name + ":" + rest) == |name|
  {
    var s := name + ":" + rest;
    assert s[|name|] == ':';
    assert forall i :: 0 <= i < |name| ==> s[i] == name[i];
  }

  lemma ParseVariableSound(part: string)
    requires ParseVariable(part).Some?
    ensures var (name, k) := ParseVariable(part).value; ValidName(name) && part == VariableText(name, k)
  {
    var inner := part[1..|part| - 1];
    var c := FirstColon(inner);
    var name, word := inner[..c], inner[c + 1..];
    var k := KindOf(word).value;
    assert ParseVariable(part) == Some((name, k));
    assert KindName(k) == word;
    assert inner == name + ":" + word;
    assert part == "<" + inner + ">";
  }

  /** A part that is not of the variable form is copied into the segments unchanged. */
  lemma LiteralPartKept(part: string)
    requires forall name, k :: !(ValidName(name) && part == VariableText(name, k))
    ensures SegmentOf(part) == Lit(part)
  {
    match ParseVariable(part) {
      case Some((name, k)) => ParseVariableExact(part, name, k);
      case None =>
    }
  }

  /** A part becomes a capture exactly when it has the variable form. */
  lemma CaptureIff(part: string, name: string, k: Kind)
    ensures SegmentOf(part) == Capture(name, k) <==> (ValidName(name) && part == VariableText(name, k))
  {
    ParseVariableExact(part, name, k);
  }

  /** A one-letter name is below the `[a-zA-Z]\w+` minimum, so `<a:int>` stays literal. */
  lemma OneLetterNameIsLiteral(c: char, k: Kind)
    ensures SegmentOf(VariableText([c], k)) == Lit(VariableText([c], k))
  {
    var part := VariableText([c], k);
    var inner := part[1..|part| - 1];
    assert inner == [c] + ":" + KindName(k);
    assert inner[1] == ':';
    assert FirstColon(inner) <= 1;
  }

  /** Leading slashes are stripped first, so `test`, `/test` and `//test` compile alike. */
  lemma LeadingSlashesIgnored(slashes: string, template: string)
    requires AllSlashes(slashes)
    ensures Compile(slashes + template) == Compile(template)
    ensures PathPatternOf(slashes + template) == PathPatternOf(template)
  {
    TrimLeftSlashIgnoresSlashes(slashes, template);
  }

  /**
   Every template yields one segment per slash of its trimmed text plus one, and
   an anchored pattern: `^/` at the front and `$` at the end.
   */
  lemma PatternShape(template: string)
    ensures |Compile(template)| == CountSlash(TrimLeftSlash(template)) + 1
    ensures var p := PathPatternOf(template); |p| >= 3 && p[..2] == "^/" && p[|p| - 1] == '$'
  {
    SplitCount(TrimLeftSlash(template));
  }

  /** The root template compiles to a single empty literal, that is `^/$`. */
  lemma RootPattern()
    ensures Compile("/") == [Lit("")]
    ensures PathPatternOf("/") == "^/$"
  {
    RootParts();
    EmptyPartIsLiteral();
    EmptyLiteralPattern();
  }

  lemma RootParts()
    ensures TemplateParts("/") == [""]
  {
    assert TrimLeftSlash("/") == "";
    assert Split("") == [""];
  }

  lemma EmptyPartIsLiteral()
    ensures CompileParts([""]) == [Lit("")]
  {
    assert ParseVariable("") == None;
  }

  lemma EmptyLiteralPattern()
    ensures Anchored(SegPatterns([Lit("")])) == "^/$"
  {
    assert SegPatterns([Lit("")]) == [""];
    assert JoinSlash([""]) == "";
  }
}

=== FILE: route.dfy ===
/** The method bitmask of route.go: one bit per recognised method name. */
module Methods {
  /** `HTTPMethods`, a byte. */
  type Mask = bv8

  const MethodError: Mask := 0x00
  const Get: Mask := 0x01
  const Post: Mask := 0x02
  const Put: Mask := 0x04
  const Delete: Mask := 0x08

  /** `HTTP_METHOD_MAP` */
  const MethodMap: map<string, Mask> := map["GET" := Get, "POST" := Post, "PUT" := Put, "DELETE" := Delete]

  /**
   `getHTTPMethods`: the bit of a recognised method name (case-sensitive), and
   the zero error mask for anything else.
   */
  function GetHTTPMethods(name: string): (m: Mask)
    ensures m == 0x01 <==> name == "GET"
    ensures m == 0x02 <==> name == "POST"
    ensures m == 0x04 <==> name == "PUT"
    ensures m == 0x08 <==> name == "DELETE"
    ensures m == MethodError <==> name !in {"GET", "POST", "PUT", "DELETE"}
  {
    if name in MethodMap then MethodMap[name] else MethodError
  }

  /** Distinct recognised methods have disjoint single bits. */
  lemma MethodBitsDistinct(a: string, b: string)
    requires a in MethodMap && b in MethodMap && a != b
    ensures GetHTTPMethods(a) & GetHTTPMethods(b) == 0
    ensures GetHTTPMethods(a) != 0 && GetHTTPMethods(a) & (GetHTTPMethods(a) - 1) == 0
  {
  }
}

/**
 Routes (route.go): a path template compiled to segments, a method mask and the
 composed handler, and the request test `matchesRequest` with its
 `RequestVars` side effect.
 */
module Routes {
  import opened Optional
  import opened Methods
  import opened Handlers
  import opened PathPattern
  import opened Matcher

  /** What routing looks at in a request: its method (`verb`) and its decoded URL path. */
  datatype Request = Request(verb: string, path: string)

  /** A compiled pattern: at least one segment, as every template compiles to. */
  type Pattern = segs: seq<Seg> | |segs| >= 1 witness [Lit("")]

  /** `Route`: the template, its compiled pattern (`pathRE`), the composed handler and the methods. */
  datatype Route = Route(path: string, segs: Pattern, handler: RequestHandler, methods: Mask)

  /** `newRoute`: the pattern is compiled from the template. */
  function NewRoute(path: string, handler: RequestHandler, methods: Mask): (r: Route)
    ensures r.path == path && r.handler == handler && r.methods == methods
    ensures r.segs == Compile(path)
  {
    PatternShape(path);
    Route(path, Compile(path), handler, methods)
  }

  /**
   The `RequestVars` map built by assigning each capture to its name in order,
   so a later capture of a repeated name wins.
   */
  function BindVars(names: seq<string>, caps: seq<string>): (vars: map<string, string>)
    requires |names| == |caps|
    ensures vars.Keys == set i | 0 <= i < |names| :: names[i]
    decreases |names|
  {
    if |names| == 0 then map[]
    else
      var n := |names| - 1;
      BindVars(names[..n], caps[..n])[names[n] := caps[n]]
  }

  /**
   `matchesRequest`: false when the method shares no bit with the route's mask
   or the path does not match; on a match with captures `RequestVars` is
   replaced by the name-to-capture map, otherwise it is left alone.
   */
  function MatchesRequest(route: Route, req: Request, vars: map<string, string>): (bool, map<string, string>)
  {
    if GetHTTPMethods(req.verb) & route.methods == MethodError then (false, vars)
    else
      var segs := route.segs;
      match MatchPath(segs, req.path)
      case None => (false, vars)
      case Some(texts) =>
        var caps := Captures(segs, texts);
        if |caps| > 0 then (true, BindVars(CaptureNames(segs), caps)) else (true, vars)
  }

  /** `methodSupported`: the method is recognised and its bit is in the route's mask. */
  predicate MethodSupported(route: Route, req: Request)
  {
    req.verb in MethodMap && MethodMap[req.verb] & route.methods != 0
  }

  /** `matchesRequest` holds exactly when the method passes the gate and the path matches the pattern. */
  lemma MatchesRequestIff(route: Route, req: Request, vars: map<string, string>)
    ensures MatchesRequest(route, req, vars).0 <==>
              (GetHTTPMethods(req.verb) & route.methods != 0 && MatchPath(route.segs, req.path).Some?)
  {
  }

  /** The method gate inside `matchesRequest` already decides `methodSupported`. */
  lemma MatchImpliesMethodSupported(route: Route, req: Request, vars: map<string, string>)
    requires MatchesRequest(route, req, vars).0
    ensures MethodSupported(route, req)
  {
  }

  /** A method outside the recognised four never matches any route. */
  lemma UnknownMethodNeverMatches(route: Route, req: Request, vars: map<string, string>)
    requires req.verb !in MethodMap
    ensures !MatchesRequest(route, req, vars).0 && MatchesRequest(route, req, vars).1 == vars
  {
  }

  /** Without a match, or with a pattern that has no capture group, `RequestVars` is untouched. */
  lemma VarsUntouched(route: Route, req: Request, vars: map<string, string>)
    requires !MatchesRequest(route, req, vars).0 || |CaptureNames(route.segs)| == 0
    ensures MatchesRequest(route, req, vars).1 == vars
  {
  }

  /**
   On a match with capture groups, the new `RequestVars` has one key per
   capture name and maps each name to the text its (last) capture matched.
   */
  lemma VarsBound(route: Route, req: Request, vars: map<string, string>, texts: seq<string>)
    requires MatchPath(route.segs, req.path) == Some(texts)
    requires GetHTTPMethods(req.verb) & route.methods != 0
    requires |CaptureNames(route.segs)| > 0
    ensures var names, caps := CaptureNames(route.segs), Captures(route.segs, texts);
            && MatchesRequest(route, req, vars) == (true, BindVars(names, caps))
            && (forall i :: 0 <= i < |names| && names[i] !in names[i + 1..] ==>
                  BindVars(names, caps)[names[i]] == caps[i])
  {
    var names, caps := CaptureNames(route.segs), Captures(route.segs, texts);
    forall i | 0 <= i < |names| && names[i] !in names[i + 1..]
      ensures BindVars(names, caps)[names[i]] == caps[i]
    {
      BindVarsLast(names, caps, i);
    }
  }

  /** The capture assigned last to a name is the one the map keeps. */
  lemma {:induction false} BindVarsLast(names: seq<string>, caps: seq<string>, i: nat)
    requires |names| == |caps| && i < |names| && names[i] !in names[i + 1..]
    ensures names[i] in BindVars(names, caps) && BindVars(names, caps)[names[i]] == caps[i]
    decreases |names|
  {
    var n := |names| - 1;
    if i < n {
      assert names[n] in names[i + 1..];
      assert names[..n][i + 1..] == names[i + 1..n];
      BindVarsLast(names[..n], caps[..n], i);
    }
  }

  /** With distinct names there is exactly one entry per capture. */
  lemma BindVarsDistinct(names: seq<string>, caps: seq<string>)
    requires |names| == |caps|
    requires forall i, j :: 0 <= i < j < |names| ==> names[i] != names[j]
    ensures |BindVars(names, caps)| == |names|
    ensures forall i :: 0 <= i < |names| ==> BindVars(names, caps)[names[i]] == caps[i]
  {
    forall i | 0 <= i < |names|
      ensures BindVars(names, caps)[names[i]] == caps[i]
    {
      assert names[i] !in names[i + 1..];
      BindVarsLast(names, caps, i);
    }
    DistinctKeysCount(names);
  }

  lemma {:induction false} DistinctKeysCount(names: seq<string>)
    requires forall i, j :: 0 <= i < j < |names| ==> names[i] != names[j]
    ensures |set i | 0 <= i < |names| :: names[i]| == |names|
    decreases |names|
  {
    if |names| > 0 {
      var n := |names| - 1;
      DistinctKeysCount(names[..n]);
      var before := set i | 0 <= i < n :: names[..n][i];
      assert (set i | 0 <= i < |names| :: names[i]) == before + {names[n]};
      assert names[n] !in before;
    }
  }
}

=== FILE: sessions.dfy ===
/**
 Sessions (session.go): 16-byte identifiers with their hyphenated hex form, the
 session record, the in-memory cache, and the session middleware with its
 expiry and renewal rules.

 Time is an integer count of seconds; `time.Unix(0, 0)` is 0. The clock and
 the random source are parameters: every operation that reads `time.Now()`
 takes `now`, and identifier generation takes the drawn numbers.
 */
module Sessions {
  import opened Optional

  type Byte = b: int | 0 <= b < 256

  /** `SessionId`: exactly sixteen bytes. */
  type SessionId = s: seq<Byte> | |s| == 16 witness [0, 0, 0, 0, 0, 0, 0, 0, 0, 0, 0, 0, 0, 0, 0, 0]

  /** `SessionDuration`: three days. */
  const SessionDuration: int := 3 * 24 * 60 * 60

  /** `SessionUpdateWindow`: twelve hours. */
  const SessionUpdateWindow: int := 12 * 60 * 60

  // ---------------------------------------------------------------- hex form

  /** The lower-case hex digit of a nibble, as `%x` writes it. */
  function HexDigit(n: int): char
    requires 0 <= n < 16
  {
    if n < 10 then ('0' as int + n) as char else ('a' as int + n - 10) as char
  }

  /** The nibble a hex digit stands for, in either case, as `%x` reads it. */
  function HexValue(c: char): Option<int>
  {
    if '0' <= c <= '9' then Some(c as int - '0' as int)
    else if 'a' <= c <= 'f' then Some(c as int - 'a' as int + 10)
    else if 'A' <= c <= 'F' then Some(c as int - 'A' as int + 10)
    else None
  }

  /** The lower-case form of a character (only `A`-`F` matter here). */
  function Lower(c: char): char
  {
    if 'A' <= c <= 'Z' then (c as int - 'A' as int + 'a' as int) as char else c
  }

  function LowerAll(s: string): (r: string)
    ensures |r| == |s| && forall i :: 0 <= i < |s| ==> r[i] == Lower(s[i])
  {
    seq(|s|, i requires 0 <= i < |s| => Lower(s[i]))
  }

  /**
   One directive of the identifier's format: a byte written as two hex digits
   (`%x` on a byte, `%2x` when scanning), or the literal dash between groups.
   */
  datatype Directive = ByteField | Dash

  /** A run of `n` byte fields. */
  function Group(n: nat): (g: seq<Directive>)
    ensures |g| == n && forall i :: 0 <= i < n ==> g[i] == ByteField
  {
    seq(n, _ => ByteField)
  }

  /** The layout `8-4-4-4-12`: bytes grouped 4, 2, 2, 2 and 6, separated by dashes. */
  function IdFormat(): seq<Directive>
  {
    Group(4) + [Dash] + Group(2) + [Dash] + Group(2) + [Dash] + Group(2) + [Dash] + Group(6)
  }

  /** The number of bytes a format carries. */
  function Fields(fmt: seq<Directive>): nat
  {
    if |fmt| == 0 then 0 else (if fmt[0] == ByteField then 1 else 0) + Fields(fmt[1..])
  }

  /** The number of characters a format writes. */
  function Width(fmt: seq<Directive>): nat
  {
    if |fmt| == 0 then 0 else (if fmt[0] == ByteField then 2 else 1) + Width(fmt[1..])
  }

  /** `Sprintf` with the format: each byte as two lower-case hex digits, each dash as `-`. */
  function Render(fmt: seq<Directive>, bs: seq<Byte>): (s: string)
    requires |bs| == Fields(fmt)
    ensures |s| == Width(fmt)
  {
    if |fmt| == 0 then ""
    else if fmt[0] == ByteField then
      [HexDigit(bs[0] / 16), HexDigit(bs[0] % 16)] + Render(fmt[1..], bs[1..])
    else "-" + Render(fmt[1..], bs)
  }

  /**
   `Sscanf` with the format: each byte from two hex digits of either case, each
   dash from a literal `-`; any text after the last field is ignored; anything
   else fails.
   */
  function Scan(fmt: seq<Directive>, s: string): (r: Option<seq<Byte>>)
    ensures r.Some? ==> |r.value| == Fields(fmt) && |s| >= Width(fmt)
  {
    if |fmt| == 0 then Some([])
    else if fmt[0] == ByteField then
      if |s| >= 2 && HexValue(s[0]).Some? && HexValue(s[1]).Some? then
        match Scan(fmt[1..], s[2..])
        case Some(rest) => Some([16 * HexValue(s[0]).value + HexValue(s[1]).value] + rest)
        case None => None
      else None
    else if |s| >= 1 && s[0] == '-' then Scan(fmt[1..], s[1..])
    else None
  }

  lemma {:induction false} SizesAppend(a: seq<Directive>, b: seq<Directive>)
    ensures Fields(a + b) == Fields(a) + Fields(b) && Width(a + b) == Width(a) + Width(b)
    decreases |a|
  {
    if |a| > 0 {
      assert (a + b)[1..] == a[1..] + b;
      SizesAppend(a[1..], b);
    } else {
      assert a + b == b;
    }
  }

  lemma {:induction false} GroupSizes(n: nat)
    ensures Fields(Group(n)) == n && Width(Group(n)) == 2 * n
  {
    if n > 0 {
      assert Group(n)[1..] == Group(n - 1);
      GroupSizes(n - 1);
    }
  }

  lemma DashSizes()
    ensures Fields([Dash]) == 0 && Width([Dash]) == 1
  {
    assert [Dash][1..] == [];
  }

  /** The identifier format carries sixteen bytes in thirty-six characters. */
  lemma IdFormatSize()
    ensures Fields(IdFormat()) == 16 && Width(IdFormat()) == 36
  {
    var d: seq<Directive> := [Dash];
    GroupSizes(4); GroupSizes(2); GroupSizes(6); DashSizes();
    var f1 := Group(4) + d;
    SizesAppend(Group(4), d);
    var f2 := f1 + Group(2);
    SizesAppend(f1, Group(2));
    var f3 := f2 + d;
    SizesAppend(f2, d);
    var f4 := f3 + Group(2);
    SizesAppend(f3, Group(2));
    var f5 := f4 + d;
    SizesAppend(f4, d);
    var f6 := f5 + Group(2);
    SizesAppend(f5, Group(2));
    var f7 := f6 + d;
    SizesAppend(f6, d);
    SizesAppend(f7, Group(6));
  }

  /** `SessionId.String`: the `8-4-4-4-12` lower-case hex form. */
  function IdString(id: SessionId): (s: string)
    ensures |s| == 36
  {
    IdFormatSize();
    Render(IdFormat(), id)
  }

  /** `SessionIdFromString`: the identifier a string starts with, or a scan error. */
  function IdFromString(s: string): (r: Option<SessionId>)
    ensures r.Some? ==> |s| >= 36
  {
    IdFormatSize();
    match Scan(IdFormat(), s)
    case Some(bs) => Some(bs)
    case None => None
  }

  // ------------------------------------------------------------ id layout

  /** A character `%x` writes: a decimal digit or a lower-case `a`-`f`. */
  predicate LowerHexChar(c: char) {
    '0' <= c <= '9' || 'a' <= c <= 'f'
  }

  /** `%x` on a byte slice: two lower-case hex digits per byte. */
  function HexBytes(bs: seq<Byte>): (s: string)
    ensures |s| == 2 * |bs|
  {
    GroupSizes(|bs|);
    Render(Group(|bs|), bs)
  }

  /** Rendering a concatenation of formats renders each over its share of the bytes. */
  lemma {:induction false} RenderAppend(a: seq<Directive>, b: seq<Directive>, bs: seq<Byte>)
    requires |bs| == Fields(a) + Fields(b)
    ensures Fields(a + b) == Fields(a) + Fields(b)
    ensures Render(a + b, bs) == Render(a, bs[..Fields(a)]) + Render(b, bs[Fields(a)..])
    decreases |a|
  {
    SizesAppend(a, b);
    if |a| == 0 {
      assert a + b == b;
    } else {
      assert (a + b)[0] == a[0] && (a + b)[1..] == a[1..] + b;
      var n := Fields(a);
      if a[0] == ByteField {
        RenderAppend(a[1..], b, bs[1..]);
        assert bs[..n][1..] == bs[1..][..n - 1];
        assert bs[1..][n - 1..] == bs[n..];
      } else {
        RenderAppend(a[1..], b, bs);
      }
    }
  }

  /** A group of `n` byte fields, a dash, and the rest of a format. */
  function GroupDash(n: nat, rest: seq<Directive>): (f: seq<Directive>)
    ensures Fields(f) == n + Fields(rest)
  {
    GroupSizes(n);
    DashSizes();
    SizesAppend(Group(n), [Dash]);
    SizesAppend(Group(n) + [Dash], rest);
    Group(n) + [Dash] + rest
  }

  /** Such a format renders the group's bytes with `%x`, a dash, and then the rest. */
  lemma RenderGroupDash(n: nat, rest: seq<Directive>, bs: seq<Byte>)
    requires |bs| == n + Fields(rest)
    ensures Render(GroupDash(n, rest), bs) == HexBytes(bs[..n]) + "-" + Render(rest, bs[n..])
  {
    GroupSizes(n);
    RenderDashCons(rest, bs[n..]);
    assert GroupDash(n, rest) == Group(n) + ([Dash] + rest);
    RenderAppend(Group(n), [Dash] + rest, bs);
  }

  lemma RenderDashCons(rest: seq<Directive>, bs: seq<Byte>)
    requires |bs| == Fields(rest)
    ensures Fields([Dash] + rest) == Fields(rest) && Render([Dash] + rest, bs) == "-" + Render(rest, bs)
  {
    var f := [Dash] + rest;
    assert f[0] == Dash && f[1..] == rest;
  }

  /** Such a format over the bytes from position `i` on. */
  lemma RenderGroupDashAt(n: nat, rest: seq<Directive>, bs: seq<Byte>, i: nat)
    requires i + n + Fields(rest) == |bs|
    ensures Render(GroupDash(n, rest), bs[i..]) == HexBytes(bs[i..i + n]) + "-" + Render(rest, bs[i + n..])
  {
    RenderGroupDash(n, rest, bs[i..]);
    assert bs[i..][..n] == bs[i..i + n] && bs[i..][n..] == bs[i + n..];
  }

  /** The formats after each dash of the identifier: `%x` over the last 6, 8, 10 and 12 bytes. */
  function Node(): (f: seq<Directive>)
    ensures Fields(f) == 6
  {
    GroupSizes(6);
    Group(6)
  }

  function Tail3(): (f: seq<Directive>)
    ensures Fields(f) == 8
  {
    GroupDash(2, Node())
  }

  function Tail2(): (f: seq<Directive>)
    ensures Fields(f) == 10
  {
    GroupDash(2, Tail3())
  }

  function Tail1(): (f: seq<Directive>)
    ensures Fields(f) == 12
  {
    GroupDash(2, Tail2())
  }

  lemma IdFormatNested()
    ensures IdFormat() == GroupDash(4, Tail1())
  {
  }

  /** An identifier's string is its first four bytes with `%x`, a dash, and the rest of the format. */
  lemma IdStringHead(id: SessionId)
    ensures IdString(id) == HexBytes(id[..4]) + "-" + Render(Tail1(), id[4..])
  {
    IdFormatNested();
    RenderGroupDash(4, Tail1(), id);
  }

  /** `%x` writes only lower-case hex digits. */
  lemma {:induction false} HexBytesDigits(bs: seq<Byte>)
    ensures forall k :: 0 <= k < |HexBytes(bs)| ==> LowerHexChar(HexBytes(bs)[k])
    decreases |bs|
  {
    if |bs| > 0 {
      var n := |bs|;
      GroupSizes(n);
      assert Group(n)[0] == ByteField && Group(n)[1..] == Group(n - 1);
      HexBytesDigits(bs[1..]);
      ByteDigits(bs[0]);
      assert HexBytes(bs) == [HexDigit(bs[0] / 16), HexDigit(bs[0] % 16)] + HexBytes(bs[1..]);
    }
  }

  /** Position `k` of `a`, a dash, then `r`. */
  lemma DashJoinAt(a: string, r: string, k: int)
    requires 0 <= k < |a| + 1 + |r|
    ensures (a + "-" + r)[k] == if k < |a| then a[k] else if k == |a| then '-' else r[k - |a| - 1]
  {
  }

  /** `%x-%x` over the last eight bytes: a dash at 4, hex digits elsewhere. */
  lemma Tail3Layout(id: SessionId)
    ensures var t := Render(Tail3(), id[8..]);
            |t| == 17 && forall k :: 0 <= k < 17 ==> if k == 4 then t[k] == '-' else LowerHexChar(t[k])
  {
    var h, r := HexBytes(id[8..10]), HexBytes(id[10..]);
    RenderGroupDashAt(2, Node(), id, 8);
    assert Render(Node(), id[10..]) == r;
    HexBytesDigits(id[8..10]);
    HexBytesDigits(id[10..]);
    forall k | 0 <= k < 17
      ensures if k == 4 then (h + "-" + r)[k] == '-' else LowerHexChar((h + "-" + r)[k])
    {
      DashJoinAt(h, r, k);
    }
  }

  /** `%x-%x-%x` over the last ten bytes: dashes at 4 and 9. */
  lemma Tail2Layout(id: SessionId)
    ensures var t := Render(Tail2(), id[6..]);
            |t| == 22 && forall k :: 0 <= k < 22 ==> if k == 4 || k == 9 then t[k] == '-' else LowerHexChar(t[k])
  {
    var h, r := HexBytes(id[6..8]), Render(Tail3(), id[8..]);
    RenderGroupDashAt(2, Tail3(), id, 6);
    Tail3Layout(id);
    HexBytesDigits(id[6..8]);
    forall k | 0 <= k < 22
      ensures if k == 4 || k == 9 then (h + "-" + r)[k] == '-' else LowerHexChar((h + "-" + r)[k])
    {
      DashJoinAt(h, r, k);
    }
  }

  /** `%x-%x-%x-%x` over the last twelve bytes: dashes at 4, 9 and 14. */
  lemma Tail1Layout(id: SessionId)
    ensures var t := Render(Tail1(), id[4..]);
            |t| == 27 && forall k :: 0 <= k < 27 ==> if k == 4 || k == 9 || k == 14 then t[k] == '-' else LowerHexChar(t[k])
  {
    var h, r := HexBytes(id[4..6]), Render(Tail2(), id[6..]);
    RenderGroupDashAt(2, Tail2(), id, 4);
    Tail2Layout(id);
    HexBytesDigits(id[4..6]);
    forall k | 0 <= k < 27
      ensures if k == 4 || k == 9 || k == 14 then (h + "-" + r)[k] == '-' else LowerHexChar((h + "-" + r)[k])
    {
      DashJoinAt(h, r, k);
    }
  }

  /**
   The layout of `SessionId.String`: 36 characters, dashes at 8, 13, 18 and 23,
   and a lower-case hex digit everywhere else.
   */
  lemma IdStringLayout(id: SessionId)
    ensures |IdString(id)| == 36
    ensures forall k :: 0 <= k < 36 ==>
              if k == 8 || k == 13 || k == 18 || k == 23 then IdString(id)[k] == '-' else LowerHexChar(IdString(id)[k])
  {
    var h, r := HexBytes(id[..4]), Render(Tail1(), id[4..]);
    IdStringHead(id);
    Tail1Layout(id);
    HexBytesDigits(id[..4]);
    forall k | 0 <= k < 36
      ensures if k == 8 || k == 13 || k == 18 || k == 23 then (h + "-" + r)[k] == '-' else LowerHexChar((h + "-" + r)[k])
    {
      DashJoinAt(h, r, k);
    }
  }

  lemma HexDigitValue(n: int)
    requires 0 <= n < 16
    ensures HexValue(HexDigit(n)) == Some(n)
    ensures Lower(HexDigit(n)) == HexDigit(n)
  {
  }

  /** Scanning what the format rendered, whatever follows it, gives the bytes back. */
  lemma {:induction false} ScanRender(fmt: seq<Directive>, bs: seq<Byte>, suffix: string)
    requires |bs| == Fields(fmt)
    ensures Scan(fmt, Render(fmt, bs) + suffix) == Some(bs)
    decreases |fmt|
  {
    if |fmt| > 0 {
      if fmt[0] == ByteField {
        ScanRender(fmt[1..], bs[1..], suffix);
        ScanRenderByte(fmt, bs, suffix);
      } else {
        ScanRender(fmt[1..], bs, suffix);
        ScanRenderDash(fmt, bs, suffix);
      }
    }
  }

  /** The round trip through a leading byte field, given the round trip of the rest. */
  lemma ScanRenderByte(fmt: seq<Directive>, bs: seq<Byte>, suffix: string)
    requires |fmt| > 0 && fmt[0] == ByteField && |bs| == Fields(fmt)
    requires Scan(fmt[1..], Render(fmt[1..], bs[1..]) + suffix) == Some(bs[1..])
    ensures Scan(fmt, Render(fmt, bs) + suffix) == Some(bs)
  {
    var hi, lo := bs[0] / 16, bs[0] % 16;
    var tail := Render(fmt[1..], bs[1..]) + suffix;
    ByteDigits(bs[0]);
    HexDigitValue(hi);
    HexDigitValue(lo);
    var t := Render(fmt, bs) + suffix;
    assert t == [HexDigit(hi), HexDigit(lo)] + tail;
    assert t[0] == HexDigit(hi) && t[1] == HexDigit(lo) && t[2..] == tail;
    assert HexValue(t[0]) == Some(hi) && HexValue(t[1]) == Some(lo);
    assert Scan(fmt, t) == Some([16 * hi + lo] + bs[1..]);
    assert [16 * hi + lo] + bs[1..] == bs;
  }

  /** The round trip through a leading dash, given the round trip of the rest. */
  lemma ScanRenderDash(fmt: seq<Directive>, bs: seq<Byte>, suffix: string)
    requires |fmt| > 0 && fmt[0] == Dash && |bs| == Fields(fmt)
    requires Scan(fmt[1..], Render(fmt[1..], bs) + suffix) == Some(bs)
    ensures Scan(fmt, Render(fmt, bs) + suffix) == Some(bs)
  {
    var tail := Render(fmt[1..], bs) + suffix;
    var t := Render(fmt, bs) + suffix;
    assert t == "-" + tail;
    assert t[0] == '-' && t[1..] == tail;
  }

  /** A byte is its high hex digit times 16 plus its low hex digit. */
  lemma ByteDigits(b: Byte)
    ensures 0 <= b / 16 < 16 && 0 <= b % 16 < 16 && 16 * (b / 16) + b % 16 == b
  {
  }


  lemma HexDigitOfValue(c: char)
    requires HexValue(c).Some?
    ensures 0 <= HexValue(c).value < 16 && HexDigit(HexValue(c).value) == Lower(c)
  {
  }

  /** What the format scans is what it renders, up to the case of the hex digits. */
  lemma {:induction false} RenderScan(fmt: seq<Directive>, s: string)
    requires Scan(fmt, s).Some?
    ensures Render(fmt, Scan(fmt, s).value) == LowerAll(s[..Width(fmt)])
    decreases |fmt|
  {
    if |fmt| > 0 {
      var bs := Scan(fmt, s).value;
      if fmt[0] == ByteField {
        HexDigitOfValue(s[0]);
        HexDigitOfValue(s[1]);
        var hi, lo := HexValue(s[0]).value, HexValue(s[1]).value;
        assert bs[0] == 16 * hi + lo && bs[0] / 16 == hi && bs[0] % 16 == lo;
        RenderScan(fmt[1..], s[2..]);
        assert s[2..][..Width(fmt[1..])] == s[2..Width(fmt)];
        assert LowerAll(s[..Width(fmt)]) == [Lower(s[0]), Lower(s[1])] + LowerAll(s[2..Width(fmt)]);
      } else {
        RenderScan(fmt[1..], s[1..]);
        assert s[1..][..Width(fmt[1..])] == s[1..Width(fmt)];
        assert LowerAll(s[..Width(fmt)]) == [Lower(s[0])] + LowerAll(s[1..Width(fmt)]);
      }
    }
  }

  /** An identifier's string parses back to the identifier, also with text appended. */
  lemma IdStringRoundTrip(id: SessionId, suffix: string)
    ensures IdFromString(IdString(id) + suffix) == Some(id)
    ensures IdFromString(IdString(id)) == Some(id)
  {
    IdFormatSize();
    ScanRender(IdFormat(), id, suffix);
    ScanRender(IdFormat(), id, "");
    assert IdString(id) + "" == IdString(id);
  }

  /**
   A string that parses starts with the parsed identifier's string, up to the
   case of its hex digits: the string form of an identifier is unique.
   */
  lemma IdFromStringCanonical(s: string)
    requires IdFromString(s).Some?
    ensures IdString(IdFromString(s).value) == LowerAll(s[..36])
  {
    IdFormatSize();
    RenderScan(IdFormat(), s);
  }

  // ------------------------------------------------------------ generation

  /** A draw of `rand.Intn(255)`: a number in `[0, 255)`. */
  predicate NarrowDraws(draws: seq<int>) {
    |draws| == 16 && forall i :: 0 <= i < 16 ==> 0 <= draws[i] < 255
  }

  /** Sixteen draws over the full byte range. */
  predicate FullDraws(draws: seq<int>) {
    |draws| == 16 && forall i :: 0 <= i < 16 ==> 0 <= draws[i] < 256
  }

  /**
   `NewSessionId` as written: byte `i` is the `i`-th draw of `rand.Intn(255)`,
   so no byte of a generated identifier is ever `0xff`.
   */
  method NewSessionIdAsWritten(draws: seq<int>) returns (id: SessionId)
    requires NarrowDraws(draws)
    ensures forall i :: 0 <= i < 16 ==> id[i] == draws[i] && id[i] != 0xff
    ensures IdString(id) != "ff000000-0000-0000-0000-000000000000"
  {
    var bytes: seq<Byte> := [];
    var i := 0;
    while i < 16
      invariant 0 <= i <= 16 && |bytes| == i
      invariant forall j :: 0 <= j < i ==> bytes[j] == draws[j]
    {
      bytes := bytes + [draws[i] as Byte];
      i := i + 1;
    }
    id := bytes;
    MissingIdentifier(id);
  }

  /** The first two characters of an identifier's string are the hex digits of its first byte. */
  lemma LeadingDigits(id: SessionId)
    ensures IdString(id)[0] == HexDigit(id[0] / 16) && IdString(id)[1] == HexDigit(id[0] % 16)
  {
    IdFormatSize();
    assert IdFormat()[0] == ByteField;
  }

  /**
   An identifier with no `0xff` byte, as the narrow generator makes, never has
   the string `ff000000-0000-0000-0000-000000000000`.
   */
  lemma MissingIdentifier(id: SessionId)
    requires forall i :: 0 <= i < 16 ==> id[i] != 0xff
    ensures IdString(id) != "ff000000-0000-0000-0000-000000000000"
  {
    LeadingDigits(id);
    NotDoubleF(id[0]);
    var lit := "ff000000-0000-0000-0000-000000000000";
    assert lit[0] == 'f' && lit[1] == 'f';
  }

  /** Only `0xff` is written `ff`. */
  lemma NotDoubleF(b: Byte)
    requires b != 0xff
    ensures HexDigit(b / 16) != 'f' || HexDigit(b % 16) != 'f'
  {
    ByteDigits(b);
  }

  /** `NewSessionId` with draws over all 256 byte values, the evidently intended generator. */
  function NewSessionId(draws: seq<int>): (id: SessionId)
    requires FullDraws(draws)
    ensures forall i :: 0 <= i < 16 ==> id[i] == draws[i]
  {
    seq(16, i requires 0 <= i < 16 => draws[i] as Byte)
  }

  /** Every identifier can be generated: the draws equal to its bytes produce it. */
  lemma EveryIdReachable(id: SessionId)
    ensures FullDraws(id) && NewSessionId(id) == id
  {
  }

  // ------------------------------------------------------- sessions, cache

  /** `Session`: identifier, values and expiration; the owning cache is passed alongside. */
  datatype Session = Session(id: SessionId, values: map<string, string>, expiration: int)

  /** `MemorySessionCache`: sessions by identifier. Its operations never fail. */
  type Cache = map<SessionId, Session>

  /** `Retrieve`: the stored session, or none for an unknown identifier (with no error). */
  function Retrieve(cache: Cache, id: SessionId): (r: Option<Session>)
    ensures r.Some? <==> id in cache
    ensures r.Some? ==> r.value == cache[id]
  {
    if id in cache then Some(cache[id]) else None
  }

  /** `Store`: the session under the identifier; other entries stay. */
  function Store(cache: Cache, id: SessionId, s: Session): (c: Cache)
    ensures Retrieve(c, id) == Some(s)
    ensures forall k :: k != id ==> Retrieve(c, k) == Retrieve(cache, k)
  {
    cache[id := s]
  }

  /** `Delete`: no entry under the identifier; other entries stay. */
  function Delete(cache: Cache, id: SessionId): (c: Cache)
    ensures Retrieve(c, id) == None
    ensures forall k :: k != id ==> Retrieve(c, k) == Retrieve(cache, k)
  {
    cache - {id}
  }

  /** `GetValue`: the value for the key and whether it is present. */
  function GetValue(s: Session, key: string): (r: Option<string>)
    ensures r.Some? <==> key in s.values
    ensures r.Some? ==> r.value == s.values[key]
  {
    if key in s.values then Some(s.values[key]) else None
  }

  /** `UpdateValue`: the key now maps to the value, and the updated session is stored. */
  function UpdateValue(s: Session, cache: Cache, key: string, value: string): (r: (Session, Cache))
    ensures GetValue(r.0, key) == Some(value)
    ensures forall k :: k != key ==> GetValue(r.0, k) == GetValue(s, k)
    ensures r.0.id == s.id && r.0.expiration == s.expiration
    ensures Retrieve(r.1, s.id) == Some(r.0)
    ensures forall k :: k != s.id ==> Retrieve(r.1, k) == Retrieve(cache, k)
  {
    var s' := s.(values := s.values[key := value]);
    (s', Store(cache, s.id, s'))
  }

  /** `Expire`: the expiration becomes `now` and the session leaves the cache. */
  function Expire(s: Session, cache: Cache, now: int): (r: (Session, Cache))
    ensures r.0 == s.(expiration := now)
    ensures Retrieve(r.1, s.id) == None
    ensures forall k :: k != s.id ==> Retrieve(r.1, k) == Retrieve(cache, k)
  {
    (s.(expiration := now), Delete(cache, s.id))
  }

  /** `NewUserSession`: a fresh identifier, only the `user` value, expiring `duration` after `now`; not yet stored. */
  function NewUserSession(user: string, id: SessionId, now: int, duration: int): (s: Session)
    ensures s.id == id && s.values == map["user" := user] && s.expiration == now + duration
  {
    Session(id, map["user" := user], now + duration)
  }

  /** `GetSession`: the cached session the key names, or none when the key does not parse or is unknown. */
  function GetSession(key: string, cache: Cache): (r: Option<Session>)
    ensures r.Some? ==> IdFromString(key).Some? && Retrieve(cache, IdFromString(key).value) == r
  {
    match IdFromString(key)
    case None => None
    case Some(id) => Retrieve(cache, id)
  }

  /** A stored session is found again by its identifier's string. */
  lemma StoreThenGet(cache: Cache, s: Session)
    ensures GetSession(IdString(s.id), Store(cache, s.id, s)) == Some(s)
  {
    IdStringRoundTrip(s.id, "");
  }

  /** After `Expire` a lookup by the identifier's string finds no session, and the session reports `now`. */
  lemma ExpireThenGet(cache: Cache, s: Session, now: int)
    ensures GetSession(IdString(s.id), Expire(s, cache, now).1) == None
    ensures Expire(s, cache, now).0.expiration == now
  {
    IdStringRoundTrip(s.id, "");
  }

  /** A key is found iff it parses to an identifier the cache holds. */
  lemma GetSessionIff(key: string, cache: Cache)
    ensures GetSession(key, cache).Some? <==> IdFromString(key).Some? && IdFromString(key).value in cache
  {
  }

  // ------------------------------------------------------------ middleware

  /**
   The cookie fields the framework reads or writes. `expires` is in seconds
   since the Unix epoch; a cookie read from a request carries none, which is
   written 0 here, the same as the epoch.
   */
  datatype Cookie = Cookie(name: string, value: string, path: string, domain: string, expires: int)

  /** The position of the first cookie with the name, if any. */
  function FirstNamed(cookies: seq<Cookie>, name: string): (r: Option<nat>)
    ensures r.Some? ==> r.value < |cookies| && cookies[r.value].name == name
                        && forall j :: 0 <= j < r.value ==> cookies[j].name != name
    ensures r.None? ==> forall j :: 0 <= j < |cookies| ==> cookies[j].name != name
  {
    if |cookies| == 0 then None
    else if cookies[0].name == name then Some(0)
    else match FirstNamed(cookies[1..], name)
      case None => None
      case Some(k) => Some(k + 1)
  }

  /** `Request.Cookie(name)`: the first cookie of that name. */
  function FindCookie(cookies: seq<Cookie>, name: string): (r: Option<Cookie>)
  {
    match FirstNamed(cookies, name)
    case None => None
    case Some(k) => Some(cookies[k])
  }

  /** The session cookie cleared as the middleware does: empty value, expiring at the epoch. */
  function Cleared(c: Cookie): Cookie
  {
    c.(value := "", expires := 0)
  }

  /**
   How the middleware's first steps classify a request: no non-empty `SID`
   cookie; a cookie whose key names no cached session; or a cookie and the
   session it names.
   */
  datatype Lookup = NoToken | Unknown(cookie: Cookie) | Known(cookie: Cookie, session: Session)

  function LookupSession(cookies: seq<Cookie>, cache: Cache): (l: Lookup)
    ensures l.NoToken? <==> FindCookie(cookies, "SID").None? || |FindCookie(cookies, "SID").value.value| == 0
    ensures !l.NoToken? ==> Some(l.cookie) == FindCookie(cookies, "SID")
    ensures l.Unknown? ==> GetSession(l.cookie.value, cache).None?
    ensures l.Known? ==> GetSession(l.cookie.value, cache) == Some(l.session)
  {
    match FindCookie(cookies, "SID")
    case None => NoToken
    case Some(c) =>
      if |c.value| == 0 then NoToken
      else match GetSession(c.value, cache)
        case None => Unknown(c)
        case Some(s) => Known(c, s)
  }

  /**
   What the session middleware leaves behind: the attached session, the cache,
   the cookies it set, and how many times it called the handler it wraps.
   */
  datatype Outcome = Outcome(session: Option<Session>, cache: Cache, setCookies: seq<Cookie>, handlerCalls: nat)

  /**
   `SessionMiddleware`. A non-empty `SID` cookie is looked up: an unknown or
   unparseable key clears the cookie; an expired session is expired and the
   cookie cleared; a live session is attached and renewed if `now` is past its
   expiration plus the window. Then, whatever happened, the wrapped handler is
   called once.
   */
  function SessionMiddlewareAsWritten(cookies: seq<Cookie>, cache: Cache, now: int, duration: int, window: int): (o: Outcome)
    ensures o.handlerCalls == 1
  {
    match LookupSession(cookies, cache)
    case NoToken => Outcome(None, cache, [], 1)
    case Unknown(c) => Outcome(None, cache, [Cleared(c)], 1)
    case Known(c, s) =>
      if now > s.expiration then Outcome(None, Expire(s, cache, now).1, [Cleared(c)], 1)
      else if now > s.expiration + window then
        var s' := s.(expiration := now + duration);
        Outcome(Some(s'), Store(cache, s.id, s'), [c.(expires := s'.expiration)], 1)
      else Outcome(Some(s), cache, [], 1)
  }

  /**
   The middleware with the renewal test the sliding window calls for: renew
   once `now` is within `window` of the expiration.
   */
  function SessionMiddleware(cookies: seq<Cookie>, cache: Cache, now: int, duration: int, window: int): (o: Outcome)
    ensures o.handlerCalls == 1
  {
    match LookupSession(cookies, cache)
    case NoToken => Outcome(None, cache, [], 1)
    case Unknown(c) => Outcome(None, cache, [Cleared(c)], 1)
    case Known(c, s) =>
      if now > s.expiration then Outcome(None, Expire(s, cache, now).1, [Cleared(c)], 1)
      else if now > s.expiration - window then
        var s' := s.(expiration := now + duration);
        Outcome(Some(s'), Store(cache, s.id, s'), [c.(expires := s'.expiration)], 1)
      else Outcome(Some(s), cache, [], 1)
  }

  /**
   Both versions attach a session iff the request carries a non-empty `SID`
   cookie naming a cached session that has not expired; the attached session
   keeps that session's identifier and values.
   */
  lemma AttachIff(cookies: seq<Cookie>, cache: Cache, now: int, duration: int, window: int)
    ensures var l := LookupSession(cookies, cache);
            var o := SessionMiddlewareAsWritten(cookies, cache, now, duration, window);
            o.session.Some? <==> l.Known? && now <= l.session.expiration
    ensures var l, o := LookupSession(cookies, cache), SessionMiddleware(cookies, cache, now, duration, window);
            && (o.session.Some? <==> l.Known? && now <= l.session.expiration)
            && (o.session.Some? ==> o.session.value.id == l.session.id && o.session.value.values == l.session.values)
  {
  }

  /**
   A non-empty `SID` cookie that names no cached session is answered with the
   cleared cookie; the cache is untouched and no session is attached.
   */
  lemma StaleCookieCleared(cookies: seq<Cookie>, cache: Cache, now: int, duration: int, window: int)
    requires FindCookie(cookies, "SID").Some? && |FindCookie(cookies, "SID").value.value| > 0
    requires GetSession(FindCookie(cookies, "SID").value.value, cache).None?
    ensures SessionMiddleware(cookies, cache, now, duration, window)
            == Outcome(None, cache, [Cleared(FindCookie(cookies, "SID").value)], 1)
    ensures SessionMiddlewareAsWritten(cookies, cache, now, duration, window)
            == Outcome(None, cache, [Cleared(FindCookie(cookies, "SID").value)], 1)
  {
  }

  /** The sessions the operations store are always filed under their own identifier. */
  predicate WellKeyed(cache: Cache) {
    forall k :: k in cache ==> cache[k].id == k
  }

  /** In a well-keyed cache, a key finds a session only if it parses to that session's identifier. */
  lemma GetSessionSound(key: string, cache: Cache)
    requires WellKeyed(cache) && GetSession(key, cache).Some?
    ensures IdFromString(key) == Some(GetSession(key, cache).value.id)
  {
  }

  /**
   A cookie naming an expired session makes the middleware expire it: no
   session is attached, the key no longer finds a session, and the cookie is
   cleared, in both versions alike.
   */
  lemma ExpiredSessionRemoved(cookies: seq<Cookie>, cache: Cache, now: int, duration: int, window: int)
    requires WellKeyed(cache)
    requires LookupSession(cookies, cache).Known? && now > LookupSession(cookies, cache).session.expiration
    ensures var l, o := LookupSession(cookies, cache), SessionMiddleware(cookies, cache, now, duration, window);
            && o.session.None?
            && GetSession(l.cookie.value, o.cache).None?
            && o.setCookies == [Cleared(l.cookie)]
            && o == SessionMiddlewareAsWritten(cookies, cache, now, duration, window)
  {
    var l := LookupSession(cookies, cache);
    GetSessionSound(l.cookie.value, cache);
  }

  /**
   Without a non-empty `SID` cookie the middleware does nothing: no session,
   no cookie, the cache unchanged.
   */
  lemma NoCookieNoEffect(cookies: seq<Cookie>, cache: Cache, now: int, duration: int, window: int)
    requires FindCookie(cookies, "SID").None? || |FindCookie(cookies, "SID").value.value| == 0
    ensures SessionMiddleware(cookies, cache, now, duration, window) == Outcome(None, cache, [], 1)
    ensures SessionMiddlewareAsWritten(cookies, cache, now, duration, window) == Outcome(None, cache, [], 1)
  {
  }

  /**
   As written, renewal is dead code for any non-negative window: a session is
   attached only when `now <= expiration`, and then `now > expiration + window`
   cannot hold, so an attached session is never extended and no cookie is set.
   */
  lemma RenewalNeverHappens(cookies: seq<Cookie>, cache: Cache, now: int, duration: int, window: int)
    requires window >= 0
    ensures var l, o := LookupSession(cookies, cache), SessionMiddlewareAsWritten(cookies, cache, now, duration, window);
            o.session.Some? ==> l.Known? && o == Outcome(Some(l.session), cache, [], 1)
  {
  }

  /**
   The discrepancy on a concrete request: a session one second from expiry,
   with the default duration and window, is left to expire by the middleware
   as written, while the sliding renewal extends it to three days from now.
   */
  lemma RenewalCounterexample(id: SessionId, now: int)
    ensures var s := Session(id, map[], now + 1);
            var cookies := [Cookie("SID", IdString(id), "", "", 0)];
            && SessionMiddlewareAsWritten(cookies, map[id := s], now, SessionDuration, SessionUpdateWindow).session
               == Some(s)
            && SessionMiddleware(cookies, map[id := s], now, SessionDuration, SessionUpdateWindow).session
               == Some(s.(expiration := now + SessionDuration))
  {
    var s := Session(id, map[], now + 1);
    var cookies := [Cookie("SID", IdString(id), "", "", 0)];
    IdCookieLookup(cookies[0], id, map[id := s]);
    KnownOutcome(cookies, map[id := s], now, SessionDuration, SessionUpdateWindow, cookies[0], s);
    KnownOutcomeAsWritten(cookies, map[id := s], now, SessionDuration, SessionUpdateWindow, cookies[0], s);
  }

  /**
   With the sliding renewal, a session that survives the middleware has at
   least `min(window, duration)` left, its cached copy is the attached one, and
   any cookie set carries the new expiration.
   */
  lemma SlidingLifetime(cookies: seq<Cookie>, cache: Cache, now: int, duration: int, window: int)
    requires WellKeyed(cache)
    ensures var o := SessionMiddleware(cookies, cache, now, duration, window);
            o.session.Some? ==>
              && o.session.value.expiration - now >= (if window < duration then window else duration)
              && Retrieve(o.cache, o.session.value.id) == o.session
              && forall i :: 0 <= i < |o.setCookies| ==> o.setCookies[i].expires == o.session.value.expiration
  {
    match LookupSession(cookies, cache)
    case NoToken =>
    case Unknown(_) =>
    case Known(c, s) =>
      var o := SessionMiddleware(cookies, cache, now, duration, window);
      KnownOutcome(cookies, cache, now, duration, window, c, s);
      if now > s.expiration {
        assert o.session.None?;
      } else if now > s.expiration - window {
        var renewed := s.(expiration := now + duration);
        assert o == Outcome(Some(renewed), Store(cache, s.id, renewed), [c.(expires := renewed.expiration)], 1);
        assert Retrieve(o.cache, s.id) == Some(renewed);
      } else {
        assert o == Outcome(Some(s), cache, [], 1);
        GetSessionSound(c.value, cache);
        assert Retrieve(cache, s.id) == Some(s);
      }
  }

  /** A request whose only cookie is a `SID` cookie carrying an identifier's string looks that identifier up. */
  lemma IdCookieLookup(c: Cookie, id: SessionId, cache: Cache)
    requires c.name == "SID" && c.value == IdString(id)
    ensures LookupSession([c], cache) == if id in cache then Known(c, cache[id]) else Unknown(c)
  {
    assert FirstNamed([c], "SID") == Some(0);
    IdStringRoundTrip(id, "");
  }

  /** The middleware as written on a known session: expire, renew, or attach as is. */
  lemma KnownOutcomeAsWritten(cookies: seq<Cookie>, cache: Cache, now: int, duration: int, window: int, c: Cookie, s: Session)
    requires LookupSession(cookies, cache) == Known(c, s)
    ensures var renewed := s.(expiration := now + duration);
            SessionMiddlewareAsWritten(cookies, cache, now, duration, window) ==
              if now > s.expiration then Outcome(None, Delete(cache, s.id), [Cleared(c)], 1)
              else if now > s.expiration + window then Outcome(Some(renewed), Store(cache, s.id, renewed), [c.(expires := renewed.expiration)], 1)
              else Outcome(Some(s), cache, [], 1)
  {
  }

  /** The intended middleware on a known session: expire, renew, or attach as is. */
  lemma KnownOutcome(cookies: seq<Cookie>, cache: Cache, now: int, duration: int, window: int, c: Cookie, s: Session)
    requires LookupSession(cookies, cache) == Known(c, s)
    ensures var renewed := s.(expiration := now + duration);
            SessionMiddleware(cookies, cache, now, duration, window) ==
              if now > s.expiration then Outcome(None, Delete(cache, s.id), [Cleared(c)], 1)
              else if now > s.expiration - window then Outcome(Some(renewed), Store(cache, s.id, renewed), [c.(expires := renewed.expiration)], 1)
              else Outcome(Some(s), cache, [], 1)
  {
  }

  /** The middleware keeps every session filed under its own identifier. */
  lemma MiddlewareKeepsKeyed(cookies: seq<Cookie>, cache: Cache, now: int, duration: int, window: int)
    requires WellKeyed(cache)
    ensures WellKeyed(SessionMiddleware(cookies, cache, now, duration, window).cache)
    ensures WellKeyed(SessionMiddlewareAsWritten(cookies, cache, now, duration, window).cache)
  {
    match LookupSession(cookies, cache)
    case NoToken =>
    case Unknown(_) =>
    case Known(_, s) =>
      var renewed := s.(expiration := now + duration);
      DeleteKeepsKeyed(cache, s.id);
      StoreKeepsKeyed(cache, renewed);
      KnownCache(cookies, cache, now, duration, window, s);
  }

  /** For a known session, each version's cache is the old one, the session removed, or the session renewed. */
  lemma KnownCache(cookies: seq<Cookie>, cache: Cache, now: int, duration: int, window: int, s: Session)
    requires LookupSession(cookies, cache).Known? && LookupSession(cookies, cache).session == s
    ensures var renewed := s.(expiration := now + duration);
            var o := SessionMiddleware(cookies, cache, now, duration, window).cache;
            var w := SessionMiddlewareAsWritten(cookies, cache, now, duration, window).cache;
            && (now > s.expiration ==> o == w == Delete(cache, s.id))
            && (now <= s.expiration ==> o in {cache, Store(cache, s.id, renewed)} && w in {cache, Store(cache, s.id, renewed)})
  {
  }

  lemma StoreKeepsKeyed(cache: Cache, s: Session)
    requires WellKeyed(cache)
    ensures WellKeyed(Store(cache, s.id, s))
  {
  }

  lemma DeleteKeepsKeyed(cache: Cache, id: SessionId)
    requires WellKeyed(cache)
    ensures WellKeyed(Delete(cache, id))
  {
  }
}

=== FILE: shapes.dfy ===
/**
 What the two template shapes of the repository's tests match: literals
 followed by one capture, and one capture followed by a literal. The concrete
 test cases are derived from these.
 */
module MatchShapes {
  import opened Optional
  import opened Strings
  import opened PathPattern
  import opened Matcher
  import opened Paths
  import opened Methods
  import opened Handlers
  import opened Routes

  /** Literal segments for the given texts. */
  function LitSegs(lits: seq<string>): (segs: seq<Seg>)
    ensures |segs| == |lits| && forall i :: 0 <= i < |lits| ==> segs[i] == Lit(lits[i])
  {
    seq(|lits|, i requires 0 <= i < |lits| => Lit(lits[i]))
  }

  /**
   What precedes the capture in a path matching `LitSegs(lits) + [c]`: the
   literals between slashes, or the leading slash alone when there are none.
   */
  function LitPrefix(lits: seq<string>): string
  {
    if |lits| == 0 then "/" else "/" + JoinSlash(lits) + "/"
  }

  /** A template of one capture matches `/` and then any text the capture accepts, all of it captured. */
  lemma CaptureOnlyMatch(c: Seg, path: string)
    requires c.Capture?
    ensures MatchPath([c], path) ==
              if |path| >= 1 && path[0] == '/' && Fits(c, path[1..]) then Some([path[1..]]) else None
  {
    var r := MatchPath([c], path);
    if r.Some? {
      var t := r.value[0];
      assert r.value == [t] && JoinSlash(r.value) == t;
      assert path[1..] == t;
    } else if |path| >= 1 && path[0] == '/' && Fits(c, path[1..]) {
      var texts := [path[1..]];
      assert Accepts([c], texts) && JoinSlash(texts) == path[1..];
      MatchPathIff([c], path, texts);
    }
  }

  /** Texts accepted by literals then one capture are the literals and then the capture's text. */
  lemma LiteralsThenCaptureTexts(lits: seq<string>, c: Seg, texts: seq<string>)
    requires |lits| >= 1 && Accepts(LitSegs(lits) + [c], texts)
    ensures texts == lits + [texts[|lits|]]
    ensures "/" + JoinSlash(texts) == LitPrefix(lits) + texts[|lits|]
  {
    var segs := LitSegs(lits) + [c];
    var n := |lits|;
    forall i | 0 <= i < n
      ensures texts[i] == lits[i]
    {
      assert segs[i] == Lit(lits[i]);
      assert Fits(segs[i], texts[i]);
    }
    assert texts == lits + [texts[n]];
    JoinSlashAppend(lits, [texts[n]]);
  }

  /**
   A template of literals followed by one capture matches exactly the paths
   that start with the literal prefix and continue with text the capture
   accepts; the capture gets all of that remaining text.
   */
  lemma LiteralsThenCaptureMatch(lits: seq<string>, c: Seg, path: string)
    requires c.Capture?
    ensures var p := LitPrefix(lits);
            MatchPath(LitSegs(lits) + [c], path) ==
              if |p| <= |path| && path[..|p|] == p && Fits(c, path[|p|..])
              then Some(lits + [path[|p|..]]) else None
  {
    var segs := LitSegs(lits) + [c];
    var p := LitPrefix(lits);
    var r := MatchPath(segs, path);
    if |lits| == 0 {
      assert segs == [c] && p == "/";
      CaptureOnlyMatch(c, path);
      if |path| >= 1 {
        assert path[..1] == [path[0]];
        assert lits + [path[1..]] == [path[1..]];
      }
    } else if r.Some? {
      LiteralsThenCaptureTexts(lits, c, r.value);
      assert path == p + r.value[|lits|];
      assert path[..|p|] == p && path[|p|..] == r.value[|lits|];
    } else if |p| <= |path| && path[..|p|] == p && Fits(c, path[|p|..]) {
      var texts := lits + [path[|p|..]];
      assert Accepts(segs, texts);
      JoinSlashAppend(lits, [path[|p|..]]);
      assert path == p + path[|p|..];
      MatchPathIff(segs, path, texts);
    }
  }

  /** Texts accepted by one capture then a literal are the capture's text and the literal. */
  lemma CaptureThenLiteralTexts(c: Seg, lit: string, texts: seq<string>)
    requires Accepts([c, Lit(lit)], texts)
    ensures texts == [texts[0], lit]
    ensures "/" + JoinSlash(texts) == "/" + texts[0] + "/" + lit
  {
    assert Fits(Lit(lit), texts[1]);
    assert texts == [texts[0], lit];
    JoinSlashCons(texts[0], [lit]);
  }

  /** The text strictly between the first character of `path` and its final `/lit`. */
  function Middle(path: string, lit: string): string
    requires |path| >= |lit| + 2
  {
    path[1..|path| - |lit| - 1]
  }

  /** Whether `path` is `/`, then text the capture accepts, then `/` and the literal. */
  predicate CaptureThenLiteralShape(c: Seg, lit: string, path: string)
  {
    |path| >= |lit| + 3 && path[0] == '/' && path[|path| - |lit| - 1..] == "/" + lit && Fits(c, Middle(path, lit))
  }

  lemma CaptureThenLiteralSound(c: Seg, lit: string, path: string)
    requires c.Capture? && MatchPath([c, Lit(lit)], path).Some?
    ensures CaptureThenLiteralShape(c, lit, path)
    ensures MatchPath([c, Lit(lit)], path).value == [Middle(path, lit), lit]
  {
    var r := MatchPath([c, Lit(lit)], path).value;
    CaptureThenLiteralTexts(c, lit, r);
    var t := r[0];
    assert path == "/" + t + "/" + lit;
    assert Fits(c, t) && |t| >= 1;
    assert Middle(path, lit) == t;
    assert path[|path| - |lit| - 1..] == "/" + lit;
  }

  lemma CaptureThenLiteralComplete(c: Seg, lit: string, path: string)
    requires CaptureThenLiteralShape(c, lit, path)
    ensures MatchPath([c, Lit(lit)], path).Some?
  {
    var t := Middle(path, lit);
    var texts := [t, lit];
    assert Accepts([c, Lit(lit)], texts);
    JoinSlashCons(t, [lit]);
    assert path == "/" + t + "/" + lit;
    MatchPathIff([c, Lit(lit)], path, texts);
  }

  /**
   A capture followed by one literal matches exactly the paths of the form
   `/` + text + `/` + literal whose text the capture accepts; the capture gets
   all of that text, so an anchored lazy `path` capture runs up to the final
   occurrence of the literal.
   */
  lemma CaptureThenLiteralMatch(c: Seg, lit: string, path: string)
    requires c.Capture?
    ensures MatchPath([c, Lit(lit)], path) ==
              if CaptureThenLiteralShape(c, lit, path) then Some([Middle(path, lit), lit]) else None
  {
    if MatchPath([c, Lit(lit)], path).Some? {
      CaptureThenLiteralSound(c, lit, path);
    } else if CaptureThenLiteralShape(c, lit, path) {
      CaptureThenLiteralComplete(c, lit, path);
    }
  }

  lemma {:induction false} CaptureNamesOfLitSegs(lits: seq<string>, c: Seg)
    requires c.Capture?
    ensures CaptureNames(LitSegs(lits) + [c]) == [c.name]
    decreases |lits|
  {
    if |lits| == 0 {
      assert LitSegs(lits) + [c] == [c];
    } else {
      assert (LitSegs(lits) + [c])[1..] == LitSegs(lits[1..]) + [c];
      CaptureNamesOfLitSegs(lits[1..], c);
    }
  }

  lemma {:induction false} CapturesOfLitSegs(lits: seq<string>, c: Seg, t: string)
    requires c.Capture?
    ensures Captures(LitSegs(lits) + [c], lits + [t]) == [t]
    decreases |lits|
  {
    if |lits| == 0 {
      assert LitSegs(lits) + [c] == [c];
      assert lits + [t] == [t];
    } else {
      assert (LitSegs(lits) + [c])[1..] == LitSegs(lits[1..]) + [c];
      assert (lits + [t])[1..] == lits[1..] + [t];
      CapturesOfLitSegs(lits[1..], c, t);
    }
  }

  /**
   A route whose pattern is literals and then one capture, asked with a
   method its mask admits: it matches exactly the paths `LiteralsThenCaptureMatch`
   describes, and the request variables become that one capture.
   */
  lemma RouteOfLiteralsThenCapture(route: Route, req: Request, vars: map<string, string>, lits: seq<string>, c: Seg)
    requires c.Capture? && route.segs == LitSegs(lits) + [c]
    requires GetHTTPMethods(req.verb) & route.methods != 0
    ensures var p := LitPrefix(lits);
            MatchesRequest(route, req, vars) ==
              if |p| <= |req.path| && req.path[..|p|] == p && Fits(c, req.path[|p|..])
              then (true, map[c.name := req.path[|p|..]]) else (false, vars)
  {
    var p := LitPrefix(lits);
    LiteralsThenCaptureMatch(lits, c, req.path);
    CaptureNamesOfLitSegs(lits, c);
    if |p| <= |req.path| && req.path[..|p|] == p && Fits(c, req.path[|p|..]) {
      var t := req.path[|p|..];
      CapturesOfLitSegs(lits, c, t);
      assert BindVars([c.name], [t]) == map[c.name := t];
    }
  }

  /** A route whose pattern is one capture and then a literal: the match of `CaptureThenLiteralMatch`. */
  lemma RouteOfCaptureThenLiteral(route: Route, req: Request, vars: map<string, string>, c: Seg, lit: string)
    requires c.Capture? && route.segs == [c, Lit(lit)]
    requires GetHTTPMethods(req.verb) & route.methods != 0
    ensures MatchesRequest(route, req, vars) ==
              if CaptureThenLiteralShape(c, lit, req.path)
              then (true, map[c.name := Middle(req.path, lit)]) else (false, vars)
  {
    CaptureThenLiteralMatch(c, lit, req.path);
    assert [c, Lit(lit)][1..] == [Lit(lit)] && [Lit(lit)][1..] == [];
    assert CaptureNames([Lit(lit)]) == [];
    assert CaptureNames([c, Lit(lit)]) == [c.name];
    if CaptureThenLiteralShape(c, lit, req.path) {
      assert [Middle(req.path, lit), lit][1..] == [lit] && [lit][1..] == [];
      assert Captures([c, Lit(lit)], [Middle(req.path, lit), lit]) == [Middle(req.path, lit)];
      assert BindVars([c.name], [Middle(req.path, lit)]) == map[c.name := Middle(req.path, lit)];
    }
  }
}

=== FILE: strings.dfy ===
/** A small Option type used wherever the Go code returns nil or a (value, ok) pair. */
module Optional {
  datatype Option<+T> = None | Some(value: T)
}

/**
 The three functions of Go's `strings` package the router relies on, specialised
 to the slash separator: `TrimLeft(s, "/")`, `Split(s, "/")` and `Join(parts, "/")`.
 */
module Strings {

  predicate NoSlash(s: string) {
    forall i :: 0 <= i < |s| ==> s[i] != '/'
  }

  predicate AllSlashes(s: string) {
    forall i :: 0 <= i < |s| ==> s[i] == '/'
  }

  /** `strings.Join(parts, "/")`: the parts with one slash between neighbours. */
  function JoinSlash(parts: seq<string>): string
  {
    if |parts| == 0 then ""
    else if |parts| == 1 then parts[0]
    else parts[0] + "/" + JoinSlash(parts[1..])
  }

  /** The number of slashes in `s`. */
  function CountSlash(s: string): nat
  {
    if |s| == 0 then 0 else (if s[0] == '/' then 1 else 0) + CountSlash(s[1..])
  }

  /** Position of the first slash of `s`, or `|s|` when there is none. */
  function FirstSlash(s: string): (k: nat)
    ensures k <= |s|
    ensures NoSlash(s[..k])
    ensures k < |s| ==> s[k] == '/'
  {
    if |s| == 0 then 0
    else if s[0] == '/' then 0
    else
      var k := 1 + FirstSlash(s[1..]);
      assert s[..k] == [s[0]] + s[1..][..k - 1];
      k
  }

  /**
   `strings.Split(s, "/")`: the slash-free pieces between slashes, empty pieces
   included, so `n` slashes give `n + 1` parts and joining them restores `s`.
   */
  function Split(s: string): (parts: seq<string>)
    ensures |parts| >= 1
    ensures forall i :: 0 <= i < |parts| ==> NoSlash(parts[i])
    ensures JoinSlash(parts) == s
    decreases |s|
  {
    var k := FirstSlash(s);
    if k == |s| then [s]
    else
      var rest := Split(s[k + 1..]);
      JoinSlashCons(s[..k], rest);
      assert s == s[..k] + "/" + s[k + 1..];
      [s[..k]] + rest
  }

  lemma JoinSlashCons(p: string, rest: seq<string>)
    requires |rest| >= 1
    ensures JoinSlash([p] + rest) == p + "/" + JoinSlash(rest)
  {
    assert ([p] + rest)[1..] == rest;
  }

  /** `n` slashes give `n + 1` parts. */
  lemma {:induction false} SplitCount(s: string)
    ensures |Split(s)| == CountSlash(s) + 1
    decreases |s|
  {
    var k := FirstSlash(s);
    if k == |s| {
      NoSlashCount(s);
    } else {
      SplitCount(s[k + 1..]);
      assert s == s[..k] + ("/" + s[k + 1..]);
      CountSlashAppend(s[..k], "/" + s[k + 1..]);
      CountSlashAppend("/", s[k + 1..]);
      NoSlashCount(s[..k]);
    }
  }

  lemma {:induction false} NoSlashCount(s: string)
    requires NoSlash(s)
    ensures CountSlash(s) == 0
    decreases |s|
  {
    if |s| > 0 {
      NoSlashCount(s[1..]);
    }
  }

  lemma {:induction false} CountSlashAppend(a: string, b: string)
    ensures CountSlash(a + b) == CountSlash(a) + CountSlash(b)
    decreases |a|
  {
    if |a| > 0 {
      assert (a + b)[1..] == a[1..] + b;
      CountSlashAppend(a[1..], b);
    } else {
      assert a + b == b;
    }
  }

  /** Splitting a join of slash-free parts gives the parts back. */
  lemma {:induction false} SplitJoinSlash(parts: seq<string>)
    requires |parts| >= 1
    requires forall i :: 0 <= i < |parts| ==> NoSlash(parts[i])
    ensures Split(JoinSlash(parts)) == parts
    decreases |parts|
  {
    var s := JoinSlash(parts);
    if |parts| == 1 {
      FirstSlashOfNoSlash(parts[0]);
    } else {
      var p := parts[0];
      var tail := JoinSlash(parts[1..]);
      assert s == p + "/" + tail;
      FirstSlashOfPrefix(p, tail);
      assert s[|p| + 1..] == tail;
      assert s[..|p|] == p;
      SplitJoinSlash(parts[1..]);
      assert Split(s) == [p] + Split(tail);
    }
  }

  lemma FirstSlashOfNoSlash(s: string)
    requires NoSlash(s)
    ensures FirstSlash(s) == |s|
  {
  }

  lemma FirstSlashOfPrefix(p: string, tail: string)
    requires NoSlash(p)
    ensures FirstSlash(p + "/" + tail) == |p|
  {
    var s := p + "/" + tail;
    var k := FirstSlash(s);
    assert s[|p|] == '/';
    assert forall i | 0 <= i < |p| :: s[i] == p[i];
  }

  /** `strings.TrimLeft(s, "/")`: `s` with every leading slash removed. */
  function TrimLeftSlash(s: string): (r: string)
    ensures |r| <= |s| && r == s[|s| - |r|..]
    ensures AllSlashes(s[..|s| - |r|])
    ensures |r| == 0 || r[0] != '/'
    decreases |s|
  {
    if |s| > 0 && s[0] == '/' then
      var r := TrimLeftSlash(s[1..]);
      assert s[..|s| - |r|] == [s[0]] + s[1..][..|s| - 1 - |r|];
      r
    else s
  }

  /** Only the text after the leading slashes matters: prefixing slashes changes nothing. */
  lemma {:induction false} TrimLeftSlashIgnoresSlashes(slashes: string, s: string)
    requires AllSlashes(slashes)
    ensures TrimLeftSlash(slashes + s) == TrimLeftSlash(s)
    decreases |slashes|
  {
    if |slashes| > 0 {
      assert (slashes + s)[1..] == slashes[1..] + s;
      TrimLeftSlashIgnoresSlashes(slashes[1..], s);
    } else {
      assert slashes + s == s;
    }
  }
}
